=== FILE: README.md ===
# tap-fastly, modelled in Dafny

A model of the decision logic of tap-fastly, a singer tap that extracts
bills and traffic statistics from the Fastly API. The model keeps what the
tap decides and leaves out how it talks to the network. Each sync pass is a
pure function from the singer state, the API's replies and the clock to a
`Run`. A `Run` holds four things:

- the SCHEMA, RECORD and STATE messages written to standard output;
- the API calls made, in order;
- the state at the end;
- whether the pass completed, or which Python exception ended it.

The modules follow the program's structure:

- `Json` models JSON values, with objects as ordered member lists (dict
  insertion order decides the order of service lookups), Python
  truthiness, `d[k]` and `for x in v`.
- `Bookmarks` models singer's `get_bookmark` and `write_bookmark` on the
  nested `bookmarks` dict, and the initial state that `main` builds.
- `Auth` models `FastlyAuthentication.__call__`, which sets the
  `Fastly-Key` header. Header names match by their lower-case form, with
  `A`..`Z` and the Kelvin sign folded.
- `Timestamps` covers several conversions:
  - the two `strptime` formats, with the leniency of its regular
    expressions: one- or two-digit fields, a space-padded day, runs of
    whitespace for a space, letters matched ignoring case;
  - `isoformat()`;
  - the subset of `pendulum.parse` the tap relies on;
  - `int_timestamp`, which reads naive times as UTC.
- `Period` models `pendulum.period(start, end).range("months")`. This
  includes the inverted period, which walks backwards.
- `Tap` defines messages, calls, replies, the environment and `Run`.
- `BillsSync` models `FastlySync.sync_bills`.
- `StatsSync` models `FastlySync.sync_stats`.
- `Catalog` models `discover`, `get_selected_streams` (with
  `metadata.to_map`) and the task list of `create_sync_tasks`.
- `Runner` models four steps:
  - `FastlySync.sync`, whose `getattr` dispatch becomes the closed set
    `sync_bills`/`sync_stats`;
  - the plan that `asyncio.gather(*sync_tasks)` builds;
  - the passes run one after another;
  - `main`'s choice of catalog and initial state.
- `Text` and `Wrappers` are helpers: ASCII digits, padding and substring
  search; `Option`.

Every `self.state = ...` runs the state setter, which writes the state
before storing it. So a write appears as a STATE message followed by the
new state. A write that `write_bookmark` cannot make raises inside the
tap's `try`, and the bare `except` swallows it.

Some of the code's behaviour is easy to misread, and the model follows the
code as written:

- **A failing client call.** A failing `bill` or `stats` call does not
  return `None`: its `except` handler calls `sys.stderr.write` with two
  arguments (tap_fastly/sync.py:53, 63), which raises `TypeError`. A reply
  that raised therefore ends the pass (`ClientFailed`). Only `service`
  returns `None`. Its caller subscripts that `None` once per row of the
  service's entry in `data`, so the pass ends there (`EnrichmentFailed`)
  when the entry has rows, and goes on to the next service when it has
  none.
- **A missing `bills` start.** When the state has no `bills.start_time`,
  the code passes `None` to `pendulum.parse` (tap_fastly/sync.py:102-103),
  which raises. Only the default state put there by `main` supplies the
  configured start date.
- **Enrichment fields.** The code assigns eight `service_*` fields to each
  stats row.
- **Bookmark order.** The code never compares bookmarks: a bill's
  `end_time` or a reply's `meta.to` earlier than the stored bookmark
  replaces it. No monotonicity property is claimed.

## Model

| member | source | states |
|---|---|---|
| Auth.SetHeader | tap_fastly/sync.py:22 | after `headers.update`, the header reads back as the given value; every header with another name (up to case) reads as before; a same-named header is replaced where it stands, otherwise one entry is appended |
| Auth.KelvinSignFolds | tap_fastly/sync.py:22 | a header name written with the Kelvin sign for `K` is the same header as `Fastly-Key` |
| Auth.Authenticate | tap_fastly/sync.py:21-24 | the request gets `Fastly-Key` set to the token; every other header, the verb and the URL are unchanged; at most one header is added |
| Json.Set | tap_fastly/sync.py:139-146 | after `d[k] = v`, `k` reads back as `v`, every other key reads as before, and the key order is kept, with a new key appended |
| Json.Iterate | tap_fastly/sync.py:136 | `for x in v` works exactly on lists, dicts and strings; a dict yields its keys in order; the loop is empty exactly when `v` is falsy |
| Bookmarks.WriteBookmark | tap_fastly/sync.py:115 | `write_bookmark` succeeds exactly when both levels of the path can be made dicts; the bookmark then reads back as the value written, and every other top-level key and every other stream's entry is unchanged |
| Bookmarks.WriteKeepsOtherKeys | tap_fastly/sync.py:151 | writing one bookmark keeps the stream's other bookmark keys and the state's top-level keys |
| Bookmarks.WriteKeepsOtherStreams | tap_fastly/sync.py:115 | when `bookmarks` is not null, writing a bookmark of one stream leaves `get_bookmark` of every other stream unchanged |
| Bookmarks.Update | tap_fastly/__init__.py:120 | after `state.update(other)`, each key reads from `other` when `other` has it and from the old state otherwise |
| Bookmarks.InitialState | tap_fastly/__init__.py:115-120 | the caller's top-level keys other than `bookmarks` are kept; a caller `bookmarks` replaces the default wholesale; without one, the bookmarks are exactly `{"bills": {"start_time": start_date}}`, so no other stream has a bookmark |
| Timestamps.ParseZuluRoundTrip | tap_fastly/sync.py:114 | an `end_time` in `%Y-%m-%dT%H:%M:%SZ` form parses back to the date-time it renders |
| Timestamps.ParseUtcRoundTrip | tap_fastly/sync.py:129 | a `meta.to` in `%Y-%m-%d %H:%M:%S UTC` form parses back to the date-time it renders |
| Timestamps.ParseIsoRoundTrip | tap_fastly/sync.py:130 | what `isoformat()` writes, and the API's `Z` form, `pendulum.parse` reads back as the same date-time |
| Timestamps.IsoFormatHasNoUtc | tap_fastly/sync.py:128 | an ISO bookmark written by the tap never contains `UTC`, so the next pass does not take it for the legacy form |
| Timestamps.UtcFormatHasUtc | tap_fastly/sync.py:128 | a legacy bookmark in the stats API's form contains `UTC`, so the next pass reparses it |
| Timestamps.EpochSecondsOrder | tap_fastly/sync.py:130-133 | `int_timestamp` is strictly increasing in the date-time, and so one-to-one |
| Timestamps.EpochOrigin | tap_fastly/sync.py:130-133 | 1970-01-01T00:00:00 is instant zero |
| Timestamps.EpochAfterLeapDay | tap_fastly/sync.py:130-133 | 2000-03-01T00:00:00 is instant 951868800, just after a leap day in a year divisible by 400 |
| Period.ForwardMonths | tap_fastly/sync.py:105-109 | for `start <= end`, the months are those of `start`, `start` plus one month, and so on, as long as the step is not after `end`; the next step is after `end` |
| Period.BackwardMonths | tap_fastly/sync.py:105-109 | for an inverted period, the months are those of `start`, `start` minus one month, and so on, as long as the step is not before `end`; the next step is before `end` |
| Period.MonthRange | tap_fastly/sync.py:105-109 | the range starts at `start`'s month; every month visited is a step of the walk on which the loop condition holds, and the loop condition fails on the next step |
| BillsSync.StepFacts | tap_fastly/sync.py:110-118 | one month completes exactly when the reply did not raise and is falsy or has a string `end_time`; an unparsable `end_time` leaves the state alone; a parsable one moves `bills.start_time` to its ISO form; no other stream or top-level key changes |
| BillsSync.MonthStep | tap_fastly/sync.py:110-112 | one month makes exactly one bill call, for that month, and writes the reply as a record exactly when it is truthy |
| BillsSync.Advance | tap_fastly/sync.py:113-118 | the bookmark step always completes and writes at most one STATE message; an `end_time` that does not match `%Y-%m-%dT%H:%M:%SZ` leaves the state unchanged |
| BillsSync.AdvanceFacts | tap_fastly/sync.py:113-115 | a parsable `end_time` sets `bills.start_time` to its ISO form; the state is the last one written; other streams and top-level keys are kept |
| BillsSync.Months | tap_fastly/sync.py:109-118 | the loop calls the API for a prefix of the months, in order, one call each; it calls every month when it completes; it never writes a SCHEMA message |
| BillsSync.MonthsCompleteIff | tap_fastly/sync.py:109-118 | the loop completes exactly when every month's reply is usable |
| BillsSync.MonthsRecords | tap_fastly/sync.py:111-112 | a completed loop writes exactly the truthy replies, in month order |
| BillsSync.MonthsWriteRequested | tap_fastly/sync.py:109-118 | however the loop ends, it has written the truthy replies of exactly the months it requested, in month order, including the record written before the handler raises |
| BillsSync.SyncBillsWritesRequested | tap_fastly/sync.py:95-118 | however a pass with a readable start ends, its records are the truthy replies of exactly the months it requested |
| BillsSync.MonthsStateIsLastWritten | tap_fastly/sync.py:115 | the loop ends on the last state it wrote, or on the one it started from |
| BillsSync.MonthsKeepOtherStreams | tap_fastly/sync.py:115 | the loop changes no other stream's bookmarks and no top-level key except `bookmarks` |
| BillsSync.MonthsBookmark | tap_fastly/sync.py:113-115 | after a completed loop, `bills.start_time` is the ISO form of the last `end_time` that parsed, or unchanged when none did |
| BillsSync.SyncBillsOutline | tap_fastly/sync.py:95-118 | with no parsable start, nothing is written and the pass ends; otherwise there is exactly one SCHEMA message with `invoice_id` and it comes first, the calls follow the months of the period, the pass completes exactly when every reply is usable, and then it writes the truthy replies in order; the pass ends on the last state it wrote |
| BillsSync.EveryMonthBilled | tap_fastly/sync.py:109-115 | when every month of the period has a bill with a parsable `end_time`, the pass completes, writes one record per month, and leaves the bookmark at the ISO form of the last month's `end_time` |
| StatsSync.StatsStart | tap_fastly/sync.py:126-132 | a bookmark level that is not a dict ends the pass, and only that does so as `MalformedState`; without a bookmark, the configured `start_date` is used |
| StatsSync.LegacyBookmarkStart | tap_fastly/sync.py:127-130 | a bookmark in the legacy `... UTC` form starts the window at that instant |
| StatsSync.IsoBookmarkStart | tap_fastly/sync.py:127-130 | an ISO bookmark starts the window at that instant |
| StatsSync.Assign | tap_fastly/sync.py:139-146 | the assignments succeed exactly when the service has every source field |
| StatsSync.AssignGets | tap_fastly/sync.py:139-146 | after the assignments, each target holds its service field, encoded by `json.dumps` where the source encodes it |
| StatsSync.AssignKeeps | tap_fastly/sync.py:139-146 | the assignments change no other member of the row |
| StatsSync.Enrich | tap_fastly/sync.py:139-146 | a row can be enriched exactly when it and the service are dicts and the service has all eight fields |
| StatsSync.EnrichedNameAndVersions | tap_fastly/sync.py:139-140 | `service_name` is the service's `name` and `service_versions` is `json.dumps` of its `versions` |
| StatsSync.EnrichedRow | tap_fastly/sync.py:139-146 | each of the eight `service_*` members holds its service field, and every other member of the row is unchanged |
| StatsSync.Rows | tap_fastly/sync.py:138-147 | the rows are written as enriched records in order and with no call; a row that cannot be enriched ends the pass, and exactly the rows before it were written |
| StatsSync.Services | tap_fastly/sync.py:136-137 | the loop looks up a prefix of the `data` keys, in order, one call each, and every key when it completes; it never changes the state |
| StatsSync.ServicesWriteRecords | tap_fastly/sync.py:136-147 | the service loop writes only records, each carrying the eight service members |
| StatsSync.EnrichAll | tap_fastly/sync.py:138-147 | the rows made into records are a prefix of the rows, each the enrichment of its row, and the row after that prefix cannot be enriched |
| StatsSync.RowsWriteEnrichAll | tap_fastly/sync.py:138-147 | the row loop writes exactly the enriched prefix of the rows, in order, and runs to its end exactly when every row was enriched |
| StatsSync.ServiceRecordFields | tap_fastly/sync.py:139-146 | the `j`-th record of item `n` is the `j`-th row of `result['data'][n]`, with each of the eight targets holding the field of `n`'s own service and every other member the row's own |
| StatsSync.ItemWritesServiceRecords | tap_fastly/sync.py:137-147 | one pass of the service loop writes the enriched rows of its own item; when it runs to its end, every row of that item was written |
| StatsSync.ServicesWriteInOrder | tap_fastly/sync.py:136-147 | a service loop that runs to its end writes every item's records in item order; one that raises stops in the pass of its last lookup, after passes that all ran to their end, having written their records and that pass's |
| StatsSync.ServicesWriteLookedUp | tap_fastly/sync.py:136-147 | however the service loop ends, it writes the records of exactly the items it looked up, in order |
| StatsSync.ProcessWritesEveryRow | tap_fastly/sync.py:135-147 | a reply's block that runs to its end writes every row of every item of `data`, item after item, each enriched with its own item's service |
| StatsSync.ProcessWritesLookedUpRows | tap_fastly/sync.py:135-154 | however the block over an iterable `data` ends, its records are the enriched rows of exactly the items whose service it looked up |
| StatsSync.SyncStatsWritesEveryRow | tap_fastly/sync.py:120-147 | a pass over a truthy reply that runs to its end writes every row of every item of `data`, in order, each enriched with its own item's service |
| StatsSync.SyncStatsWritesLookedUpRows | tap_fastly/sync.py:120-154 | however a pass over a truthy reply with an iterable `data` ends, after the stats request its records are the enriched rows of exactly the items looked up |
| StatsSync.ProcessLooksUpEveryService | tap_fastly/sync.py:136-137 | a completed pass over a `data` dict makes exactly one service call per key, in key order |
| StatsSync.Finish | tap_fastly/sync.py:148-154 | the bookmark step makes no call and writes nothing or one STATE message of the state it ends on; it changes no other stream's bookmarks and no top-level key except `bookmarks` |
| StatsSync.SyncStatsKeepOtherStreams | tap_fastly/sync.py:120-154 | however the stats pass ends, it changes no other stream's bookmarks and no top-level key except `bookmarks` |
| StatsSync.FinishWritesMetaTo | tap_fastly/sync.py:148-151 | a `meta.to` that parses sets `stats.from` to its ISO form and writes one STATE message |
| StatsSync.FinishSkipsUnreadableMetaTo | tap_fastly/sync.py:148-154 | a `meta.to` that does not parse leaves the state alone and the pass continues |
| StatsSync.ProcessOutline | tap_fastly/sync.py:135-154 | a reply's processing writes no SCHEMA message; every record carries the service members; at most one STATE message is written, as the last message, and the pass ends on it |
| StatsSync.SyncStatsOutline | tap_fastly/sync.py:120-154 | there is exactly one SCHEMA message with `service_id`, `start_time`, and it comes first; an unusable start ends the pass after it; otherwise the first call is the stats call from the start to now, and its reply is processed |
| StatsSync.EmptyReply | tap_fastly/sync.py:134-135 | an empty stats reply writes only the SCHEMA message and keeps the state |
| StatsSync.NextWindowStartsAtMetaTo | tap_fastly/sync.py:126-151 | after a completed pass whose `meta.to` parsed, the next pass starts at the instant `meta.to` named |
| Catalog.Project | tap_fastly/__init__.py:40-43 | the projection succeeds exactly when the document has `streams[0].schema` and the nested `table-key-properties`, and it holds those values |
| Catalog.Discover | tap_fastly/__init__.py:31-58 | discovery succeeds exactly when every schema document can be projected |
| Catalog.DiscoveredEntry | tap_fastly/__init__.py:49-56 | the `i`-th entry names the `i`-th document as `stream` and `tap_stream_id` and copies its schema, metadata and key properties |
| Catalog.LastRootWins | tap_fastly/__init__.py:69 | in `to_map`, a later entry at the empty breadcrumb replaces an earlier one |
| Catalog.RootIgnoresOtherBreadcrumbs | tap_fastly/__init__.py:69-71 | entries at other breadcrumbs never change the root metadata |
| Catalog.SelectStep | tap_fastly/__init__.py:69-72 | a stream is taken exactly when its root metadata has a truthy `selected` and it has a `tap_stream_id`, which is then the value taken; it is skipped exactly when it is not selected |
| Catalog.SelectedStreams | tap_fastly/__init__.py:61-74 | `get_selected_streams` succeeds exactly when the catalog has `streams` and no stream makes a lookup raise |
| Catalog.SelectionIsInOrder | tap_fastly/__init__.py:67-74 | the selected ids are those of exactly the selected streams, one each, in catalog order |
| Catalog.SelectionMembership | tap_fastly/__init__.py:68-72 | an id is selected exactly when some selected stream has it as `tap_stream_id` |
| Catalog.SelectedStreamHasId | tap_fastly/__init__.py:71-72 | every selected stream's `tap_stream_id` is in the list |
| Catalog.TaskOf | tap_fastly/__init__.py:83-85 | a stream becomes a task exactly with its own id, which is selected, and its own schema; it is skipped exactly when its id is not selected |
| Catalog.TasksFollowSelection | tap_fastly/__init__.py:81-87 | the tasks are, in catalog order, those of the streams whose id is selected, each with that stream's id and schema; no selected stream is missed |
| Runner.Dispatch | tap_fastly/sync.py:91-92 | only `bills` and `stats` find a `sync_` method, and each finds its own |
| Runner.PlanOfFailure | tap_fastly/__init__.py:81-87 | a plan fails only on a malformed catalog, or on a selected id that has no `sync_` method |
| Runner.PlanFollowsTasks | tap_fastly/__init__.py:83-87 | the plan succeeds exactly when every task's id has a method, and then it holds one pass per task, in order, with the task's kind and schema |
| Runner.PassStateIsLastWritten | tap_fastly/sync.py:86-89 | every pass ends on the state it last wrote through the setter, or on its initial state |
| Runner.RunPassesStateIsLastWritten | tap_fastly/sync.py:86-89 | the same holds across the passes of a run |
| Runner.SyncAllOutline | tap_fastly/__init__.py:81-87 | a catalog without tasks, or with a task lacking a method, ends the run before any pass writes or calls anything; otherwise the passes of the plan run in order; the run ends on the last state written |
| Runner.Launch | tap_fastly/__init__.py:99-122 | discovery mode prints exactly the discovered catalog; sync mode syncs exactly when a catalog is available |
| Runner.CallerCatalogWins | tap_fastly/__init__.py:109-110 | with a truthy caller catalog, the sync runs on it from the initial state, whatever the schema documents hold |
| Runner.LaunchAsWritten | tap_fastly/__init__.py:99-122 | as written, a sync happens exactly when neither `--discover` nor `--catalog` is given and discovery succeeds, and then it runs on the discovered catalog; discovery mode is as in Runner.Launch |
| Runner.CallerCatalogCrashesAsWritten | tap_fastly/__init__.py:109-110 | a `--catalog` with no streams crashes as written (the subscript at tap_fastly/__init__.py:68 raises), while the dict-shaped reading completes with nothing written or requested |
| Runner.DiscoveredCatalogOtherwise | tap_fastly/__init__.py:111-112 | without a caller catalog, the sync runs on the discovered one, and a discovery that raises crashes the run |

## Left out

- HTTP: the `requests` session, URL joining, `raise_for_status` and JSON
  decoding. Each client call is a function of the environment that
  returns the decoded body or an exception (`Reply`).
- Logging: the `stderr` writes and singer's logger are not modelled.
  Only the exception raised by the two-argument `sys.stderr.write` is
  kept.
- Schema loading: `load_schemas` reads files from disk. `discover` takes
  the documents as a parameter, in listing order.
- I/O in `main`: command-line parsing, `json.dumps` of the printed
  catalog and the top-level exception handler are not modelled. `main`
  yields the catalog it would print, or `Crashed`.
- Runner.RunPasses: runs the passes one after the other, in catalog
  order, and stops at the first pass that raises. Under
  `asyncio.gather` (tap_fastly/__init__.py:87, 93) the output differs in
  four ways that this does not model:
  - every task is scheduled before any runs, and each task's first step
    runs before any executor result resumes a task. A bills pass writes
    its SCHEMA message and makes its first bill request there; a stats
    pass writes its SCHEMA message and makes the stats request. So both
    SCHEMA messages come before any RECORD message;
  - a bills pass that raises still leaves the stats pass's SCHEMA message
    and stats request behind;
  - a STATE message writes the whole shared state dict, so what it holds
    depends on how the passes interleave;
  - two catalog entries with the same id run two passes on the same
    bookmark keys.
- Runner.SyncAllOutline: inherits the sequential order of
  Runner.RunPasses, with the same four differences from `gather`.
- The clock: `pendulum.now()` is the environment's `now`, a naive UTC
  date-time.
- `json.dumps` of `versions` is a function of the environment.
- The explicit `period` argument: nothing in the tap passes one, so only
  the default period, from the bookmark to now, is modelled.
- `pendulum.parse`: only the forms `YYYY-MM-DD`, `YYYY-MM-DDTHH:MM:SS`
  and `YYYY-MM-DDTHH:MM:SSZ` are read, as UTC. Any other text counts as a
  parse failure, which ends the pass.
- Period.MonthRange: pendulum clamps the day when adding months (31 January
  plus one month is 28 or 29 February). The model keeps the day as it
  is. This only affects the comparison with `end` within the last month.
- JSON numbers are integers; floats are not modelled. Python's
  `1 == True` equality is not modelled either, except in list indexing.
- The config's `start_date` is taken to be a string.
- Runner.Launch: takes a caller catalog to be the dict `discover`
  produces, which is what `create_sync_tasks` subscripts. As written,
  singer's `parse_args` loads `--catalog` into a `Catalog` object, and
  `catalog['streams']` at tap_fastly/__init__.py:68 then raises
  `TypeError`, so every sync on a caller catalog crashes before writing
  anything; Runner.LaunchAsWritten models that (see "## Findings"). A
  catalog file that `Catalog.load` cannot read is not modelled.
- Runner.CallerCatalogWins: describes the sync on a dict-shaped caller
  catalog; as written that sync never happens, and the run crashes
  instead.
- The `FastlyClient` constructor and its lazily created session hold no
  decision logic.
- Auth.SetHeader: header names are folded only for `A`..`Z` and the
  Kelvin sign (U+212A), which `str.lower()` turns into `k`. Other case
  pairs that `str.lower()` identifies, such as non-ASCII letters or
  U+0130, which lowers to two characters, are not folded. No such
  character lowers into a character of `fastly-key`, so this does not
  affect Auth.Authenticate.
- Timestamps: only ASCII digits are recognised by `strptime`; Python's
  `\d` also matches other Unicode digits.

## Findings

| source | as written | input that shows it | evidently intended | confidence | as-written member | corrected member |
|---|---|---|---|---|---|---|
| tap_fastly/__init__.py:109-110 | `args.catalog` is the `Catalog` object singer's `parse_args` builds; it is always truthy and cannot be subscripted, so `catalog['streams']` at tap_fastly/__init__.py:68 raises `TypeError` | `--catalog` naming a file that holds `{"streams": []}` | the caller's catalog is used as a dict, like the discovered one: a catalog with no streams syncs nothing and completes | medium; not executed; the behaviour of `parse_args` comes from singer-python, which is not part of this model | Runner.LaunchAsWritten, Runner.CallerCatalogCrashesAsWritten | Runner.Launch, Runner.CallerCatalogWins |


=== FILE: auth.dfy ===
/** `FastlyAuthentication`: the hook `requests` calls on every outgoing
    request to attach the API token. */
module Auth {
  import opened Wrappers
  import opened Text

  /** Request headers as `requests` keeps them: a case-insensitive dict that
      remembers the spelling last used for each name. */
  type Headers = seq<(string, string)>

  datatype Request = Request(verb: string, url: string, headers: Headers)

  /** The header name `FastlyAuthentication` sets. */
  const TokenHeader := "Fastly-Key"

  /** `str.lower()` on one character, for the characters it maps onto an
      ASCII letter: `A`..`Z` and the Kelvin sign, which lowers to `k`. */
  function FoldChar(c: char): char {
    if c == '\U{212A}' then 'k' else Lower(c)
  }

  /** Header names compare by their lower-case form. */
  function Fold(name: string): (f: string)
    ensures |f| == |name|
    ensures forall i :: 0 <= i < |name| ==> f[i] == FoldChar(name[i])
  {
    seq(|name|, i requires 0 <= i < |name| => FoldChar(name[i]))
  }

  /** A header spelt with the Kelvin sign names the token header too. */
  lemma KelvinSignFolds()
    ensures Fold("Fastly-\U{212A}ey") == Fold(TokenHeader)
  {
  }

  /** `headers[name]`: the value stored under a name equal to `name` up to case. */
  function Lookup(h: Headers, name: string): Option<string> {
    if |h| == 0 then None
    else if Fold(h[0].0) == Fold(name) then Some(h[0].1)
    else Lookup(h[1..], name)
  }

  /** `headers[name] = value`: an entry whose name matches up to case is
      replaced where it stands, spelt as given now; otherwise the entry is
      appended. */
  function SetHeader(h: Headers, name: string, value: string): (r: Headers)
    ensures Lookup(r, name) == Some(value)
    ensures forall n :: Fold(n) != Fold(name) ==> Lookup(r, n) == Lookup(h, n)
    ensures |r| == |h| || (|r| == |h| + 1 && r[|h|] == (name, value))
    ensures forall i :: 0 <= i < |h| && Fold(h[i].0) != Fold(name) ==> r[i] == h[i]
  {
    if |h| == 0 then [(name, value)]
    else if Fold(h[0].0) == Fold(name) then
      var r := [(name, value)] + h[1..];
      assert r[1..] == h[1..];
      r
    else
      var r := [h[0]] + SetHeader(h[1..], name, value);
      assert r[1..] == SetHeader(h[1..], name, value);
      r
  }

  /** `FastlyAuthentication(token)(req)`: the request comes back with the
      `Fastly-Key` header carrying the token and everything else as it was. */
  function Authenticate(token: string, req: Request): (r: Request)
    ensures Lookup(r.headers, TokenHeader) == Some(token)
    ensures forall n :: Fold(n) != Fold(TokenHeader) ==> Lookup(r.headers, n) == Lookup(req.headers, n)
    ensures |req.headers| <= |r.headers| <= |req.headers| + 1
    ensures forall i ::
      0 <= i < |req.headers| && Fold(req.headers[i].0) != Fold(TokenHeader) ==> r.headers[i] == req.headers[i]
    ensures r.verb == req.verb && r.url == req.url
  {
    req.(headers := SetHeader(req.headers, TokenHeader, token))
  }
}

=== FILE: bills.dfy ===
/** `FastlySync.sync_bills`: one SCHEMA message, then one bill per calendar
    month from the `bills.start_time` bookmark up to now, advancing the
    bookmark to each bill's `end_time`. */
module BillsSync {
  import opened Wrappers
  import opened Json
  import opened Timestamps
  import opened Period
  import opened Bookmarks
  import opened Tap

  const Stream := "bills"
  const BookmarkKey := "start_time"
  const KeyProperties := ["invoice_id"]

  /** The `end_time` of a reply, when the bill is emitted and its `end_time`
      is a string that `strptime` accepts. */
  function EndTime(reply: Reply): (r: Option<DateTime>)
    ensures r.Some? ==> Valid(r.value)
  {
    if reply.Body? && Truthy(reply.body) then
      match Subscript(reply.body, "end_time")
      case Some(Str(text)) => ParseZulu(text)
      case _ => None
    else None
  }

  /** The `try` block after a record: parse `end_time` and, if that and
      `write_bookmark` succeed, set the state through the setter, which
      writes a STATE message. Any failure is swallowed by the bare except. */
  function Advance(st: State, text: string): (r: Run)
    ensures r.status.Completed? && r.calls == []
    ensures r.messages == [] || r.messages == [StateMessage(r.state)]
    ensures ParseZulu(text).None? ==> r.messages == [] && r.state == st
  {
    match ParseZulu(text)
    case None => Run([], [], st, Completed)
    case Some(end) => Bookmarked(st, IsoFormat(end))
  }

  /** `singer.write_bookmark(state, 'bills', 'start_time', iso)` followed
      by `singer.write_state(state)`, when the state can take the bookmark. */
  function Bookmarked(st: State, iso: string): (r: Run)
    ensures r.status.Completed? && r.calls == []
    ensures r.messages == [] || r.messages == [StateMessage(r.state)]
  {
    match WriteBookmark(st, Stream, BookmarkKey, Str(iso))
    case None => Run([], [], st, Completed)
    case Some(st') => Run([StateMessage(st')], [], st', Completed)
  }

  /** One iteration of the month loop, for month `at`, from state `st`. A
      falsy result is skipped; anything else is written as a record first.
      A result without a string `end_time` makes the except handler itself
      raise, which ends the pass. */
  function MonthStep(st: State, at: YearMonth, env: Environment): (r: Run)
    ensures r.calls == [BillCall(at)]
    ensures NoSchema(r.messages)
    ensures Records(r.messages) == (if env.bill(at).Body? && Truthy(env.bill(at).body) then [env.bill(at).body] else [])
  {
    match env.bill(at)
    case Raised => Run([], [BillCall(at)], st, Aborted(ClientFailed))
    case Body(result) =>
      if !Truthy(result) then Run([], [BillCall(at)], st, Completed)
      else
        var record := RecordMessage(Stream, result);
        match Subscript(result, "end_time")
        case None => Run([record], [BillCall(at)], st, Aborted(MissingMember("end_time")))
        case Some(Str(text)) =>
          var adv := Advance(st, text);
          assert Records(adv.messages) == [];
          RecordsAppend([record], adv.messages);
          Run([record] + adv.messages, [BillCall(at)], adv.state, Completed)
        case Some(_) => Run([record], [BillCall(at)], st, Aborted(NotText("end_time")))
  }

  /** The month loop over `months`, stopping at the first month that aborts. */
  function Months(st: State, months: seq<YearMonth>, env: Environment): (r: Run)
    ensures |r.calls| <= |months|
    ensures forall i :: 0 <= i < |r.calls| ==> r.calls[i] == BillCall(months[i])
    ensures r.status.Completed? ==> |r.calls| == |months|
    ensures NoSchema(r.messages)
    decreases |months|
  {
    if |months| == 0 then Run([], [], st, Completed)
    else
      var first := MonthStep(st, months[0], env);
      if first.status.Aborted? then first
      else
        var rest := Months(first.state, months[1..], env);
        Run(first.messages + rest.messages, first.calls + rest.calls, rest.state, rest.status)
  }

  /** `sync_bills(schema)` with the default period: from the `start_time`
      bookmark, read by `pendulum.parse`, to now. */
  function SyncBills(st: State, schema: Value, env: Environment): (r: Run)
    requires Valid(env.now)
  {
    if GetBookmark(st, Stream, BookmarkKey).Unreadable? then Run([], [], st, Aborted(MalformedState))
    else
      match Start(st)
      case None => Run([], [], st, Aborted(UnparsableStart))
      case Some(start) => WithSchema(schema, Months(st, MonthRange(start, env.now), env))
  }

  /** The month loop preceded by `singer.write_schema`. */
  function WithSchema(schema: Value, pass: Run): Run {
    Run([SchemaMessage(Stream, schema, KeyProperties)] + pass.messages, pass.calls, pass.state, pass.status)
  }

  // ---------------------------------------------------------------------
  // Reference definitions over the replies, month by month

  /** A reply the loop body gets through without an escaping exception. */
  predicate Usable(reply: Reply) {
    reply.Body? && (!Truthy(reply.body) || (Subscript(reply.body, "end_time").Some? && Subscript(reply.body, "end_time").value.Str?))
  }

  /** The results written as records for `months`: every truthy body, in
      month order. */
  function Emitted(months: seq<YearMonth>, env: Environment): seq<Value>
    decreases |months|
  {
    if |months| == 0 then []
    else
      var reply := env.bill(months[0]);
      (if reply.Body? && Truthy(reply.body) then [reply.body] else []) + Emitted(months[1..], env)
  }

  /** The `end_time` of the last month in `months` whose `end_time` parsed. */
  function LastEnd(months: seq<YearMonth>, env: Environment): (r: Option<DateTime>)
    ensures r.Some? ==> Valid(r.value)
    decreases |months|
  {
    if |months| == 0 then None
    else
      var later := LastEnd(months[1..], env);
      if later.Some? then later else EndTime(env.bill(months[0]))
  }

  /** The start the default period is built from: `pendulum.parse` of the
      bookmark, which fails unless the bookmark is a string in ISO form. */
  function Start(st: State): Option<DateTime> {
    match GetBookmark(st, Stream, BookmarkKey)
    case Present(Str(text)) => ParseIso(text)
    case _ => None
  }

  // ---------------------------------------------------------------------
  // Properties of one month

  lemma StepFacts(st: State, at: YearMonth, env: Environment)
    ensures MonthStep(st, at, env).status.Completed? <==> Usable(env.bill(at))
    ensures EndTime(env.bill(at)).None? ==> MonthStep(st, at, env).state == st
    ensures EndTime(env.bill(at)).Some? && Writable(st, Stream) ==>
      && GetBookmark(MonthStep(st, at, env).state, Stream, BookmarkKey) == Present(Str(IsoFormat(EndTime(env.bill(at)).value)))
    ensures var r := MonthStep(st, at, env);
      r.state == (if |States(r.messages)| > 0 then States(r.messages)[|States(r.messages)| - 1] else st)
    ensures var r := MonthStep(st, at, env);
      && (forall s :: s != Stream ==> StreamEntry(r.state, s) == StreamEntry(st, s))
      && (forall k :: k != "bookmarks" ==> Get(r.state, k) == Get(st, k))
    ensures forall other :: Writable(st, other) ==> Writable(MonthStep(st, at, env).state, other)
  {
    StepCompletes(st, at, env);
    if env.bill(at).Body? && Truthy(env.bill(at).body) {
      var result := env.bill(at).body;
      var member := Subscript(result, "end_time");
      if member.Some? && member.value.Str? {
        StepAdvances(st, at, env);
      }
    }
  }

  lemma StepCompletes(st: State, at: YearMonth, env: Environment)
    ensures MonthStep(st, at, env).status.Completed? <==> Usable(env.bill(at))
  {
  }

  /** A month whose bill has a string `end_time` ends on what the bookmark
      step after its record does. */
  lemma StepAdvances(st: State, at: YearMonth, env: Environment)
    requires env.bill(at).Body? && Truthy(env.bill(at).body)
    requires Subscript(env.bill(at).body, "end_time").Some? && Subscript(env.bill(at).body, "end_time").value.Str?
    ensures var text := Subscript(env.bill(at).body, "end_time").value.s;
      var adv := Advance(st, text);
      var r := MonthStep(st, at, env);
      && EndTime(env.bill(at)) == ParseZulu(text)
      && r.state == adv.state
      && States(r.messages) == States(adv.messages)
    ensures var r := MonthStep(st, at, env);
      && r.state == (if |States(r.messages)| > 0 then States(r.messages)[|States(r.messages)| - 1] else st)
      && (forall s :: s != Stream ==> StreamEntry(r.state, s) == StreamEntry(st, s))
      && (forall k :: k != "bookmarks" ==> Get(r.state, k) == Get(st, k))
    ensures forall other :: Writable(st, other) ==> Writable(MonthStep(st, at, env).state, other)
    ensures EndTime(env.bill(at)).Some? && Writable(st, Stream) ==>
      GetBookmark(MonthStep(st, at, env).state, Stream, BookmarkKey) == Present(Str(IsoFormat(EndTime(env.bill(at)).value)))
  {
    var result := env.bill(at).body;
    var text := Subscript(result, "end_time").value.s;
    var adv := Advance(st, text);
    assert MonthStep(st, at, env) == Run([RecordMessage(Stream, result)] + adv.messages, [BillCall(at)], adv.state, Completed);
    RecordsAppend([RecordMessage(Stream, result)], adv.messages);
    AdvanceFacts(st, text);
  }

  /** The bookmark step after a record: the state it ends on is the one it
      wrote, if any; only `bookmarks.bills.start_time` changes, to the ISO
      form of the parsed `end_time`. */
  lemma AdvanceFacts(st: State, text: string)
    ensures var r := Advance(st, text);
      r.state == (if |States(r.messages)| > 0 then States(r.messages)[|States(r.messages)| - 1] else st)
    ensures var r := Advance(st, text);
      && (forall s :: s != Stream ==> StreamEntry(r.state, s) == StreamEntry(st, s))
      && (forall k :: k != "bookmarks" ==> Get(r.state, k) == Get(st, k))
    ensures forall other :: Writable(st, other) ==> Writable(Advance(st, text).state, other)
    ensures ParseZulu(text).Some? && Writable(st, Stream) ==>
      GetBookmark(Advance(st, text).state, Stream, BookmarkKey) == Present(Str(IsoFormat(ParseZulu(text).value)))
  {
    var end := ParseZulu(text);
    if end.Some? {
      assert Advance(st, text) == Bookmarked(st, IsoFormat(end.value));
      BookmarkedFacts(st, IsoFormat(end.value));
    }
  }

  /** Writing bookmark `iso`: the state the step ends on is the one it
      wrote, if any; only `bookmarks.bills.start_time` changes, to `iso`. */
  lemma BookmarkedFacts(st: State, iso: string)
    ensures var r := Bookmarked(st, iso);
      r.state == (if |States(r.messages)| > 0 then States(r.messages)[|States(r.messages)| - 1] else st)
    ensures var r := Bookmarked(st, iso);
      && (forall s :: s != Stream ==> StreamEntry(r.state, s) == StreamEntry(st, s))
      && (forall k :: k != "bookmarks" ==> Get(r.state, k) == Get(st, k))
    ensures forall other :: Writable(st, other) ==> Writable(Bookmarked(st, iso).state, other)
    ensures Writable(st, Stream) ==> GetBookmark(Bookmarked(st, iso).state, Stream, BookmarkKey) == Present(Str(iso))
  {
    var w := WriteBookmark(st, Stream, BookmarkKey, Str(iso));
    if w.Some? {
      assert States([StateMessage(w.value)]) == [w.value];
      forall other | Writable(st, other)
        ensures Writable(w.value, other)
      {
        WriteKeepsWritable(st, Stream, BookmarkKey, Str(iso), other);
      }
    }
  }

  // ---------------------------------------------------------------------
  // Properties of the month loop

  /** The loop runs to its end exactly when no month's reply makes an
      exception escape. */
  lemma {:induction false} MonthsCompleteIff(st: State, months: seq<YearMonth>, env: Environment)
    ensures Months(st, months, env).status.Completed? <==> forall i :: 0 <= i < |months| ==> Usable(env.bill(months[i]))
    decreases |months|
  {
    if |months| > 0 {
      StepFacts(st, months[0], env);
      var first := MonthStep(st, months[0], env);
      if first.status.Completed? {
        MonthsCompleteIff(first.state, months[1..], env);
        assert forall i :: 1 <= i < |months| ==> months[i] == months[1..][i - 1];
      }
    }
  }

  /** A completed loop writes exactly the truthy results as records, in month
      order. */
  lemma {:induction false} MonthsRecords(st: State, months: seq<YearMonth>, env: Environment)
    requires Months(st, months, env).status.Completed?
    ensures Records(Months(st, months, env).messages) == Emitted(months, env)
    decreases |months|
  {
    if |months| > 0 {
      var first := MonthStep(st, months[0], env);
      var rest := Months(first.state, months[1..], env);
      MonthsRecords(first.state, months[1..], env);
      RecordsAppend(first.messages, rest.messages);
    }
  }

  /** However the loop ends, it has written the truthy replies of exactly
      the months it requested, in month order: a month whose reply has no
      usable `end_time` still has its record written before the handler
      raises, and a request that raised writes none. */
  lemma {:induction false} MonthsWriteRequested(st: State, months: seq<YearMonth>, env: Environment)
    ensures var r := Months(st, months, env);
      Records(r.messages) == Emitted(months[..|r.calls|], env)
    decreases |months|
  {
    if |months| > 0 {
      var first := MonthStep(st, months[0], env);
      var r := Months(st, months, env);
      if first.status.Aborted? {
        assert months[..|r.calls|] == [months[0]];
        assert months[..|r.calls|][1..] == [];
      } else {
        var rest := Months(first.state, months[1..], env);
        MonthsWriteRequested(first.state, months[1..], env);
        RecordsAppend(first.messages, rest.messages);
        assert months[..|r.calls|][1..] == months[1..][..|rest.calls|];
      }
    }
  }

  /** The state at the end of the loop is the one the last STATE message
      carried, or the starting state if none was written. */
  lemma {:induction false} MonthsStateIsLastWritten(st: State, months: seq<YearMonth>, env: Environment)
    ensures var r := Months(st, months, env);
      r.state == if |States(r.messages)| > 0 then States(r.messages)[|States(r.messages)| - 1] else st
    decreases |months|
  {
    if |months| > 0 {
      StepFacts(st, months[0], env);
      var first := MonthStep(st, months[0], env);
      if first.status.Completed? {
        var rest := Months(first.state, months[1..], env);
        MonthsStateIsLastWritten(first.state, months[1..], env);
        assert Months(st, months, env) == Run(first.messages + rest.messages, first.calls + rest.calls, rest.state, rest.status);
        LastWrittenAppend(first.messages, rest.messages, st, first.state, rest.state);
      }
    }
  }

  /** Ending on the last state written carries over from two stretches of
      output to the two together. */
  lemma LastWrittenAppend(a: seq<Message>, b: seq<Message>, st: State, mid: State, end: State)
    requires mid == if |States(a)| > 0 then States(a)[|States(a)| - 1] else st
    requires end == if |States(b)| > 0 then States(b)[|States(b)| - 1] else mid
    ensures end == if |States(a + b)| > 0 then States(a + b)[|States(a + b)| - 1] else st
  {
    RecordsAppend(a, b);
  }

  /** The loop only ever touches `bookmarks.bills`: other streams' bookmarks
      and the state's other members are as they were. */
  lemma {:induction false} MonthsKeepOtherStreams(st: State, months: seq<YearMonth>, env: Environment)
    ensures var r := Months(st, months, env);
      && (forall s :: s != Stream ==> StreamEntry(r.state, s) == StreamEntry(st, s))
      && (forall k :: k != "bookmarks" ==> Get(r.state, k) == Get(st, k))
    decreases |months|
  {
    if |months| > 0 {
      StepFacts(st, months[0], env);
      var first := MonthStep(st, months[0], env);
      if first.status.Completed? {
        MonthsKeepOtherStreams(first.state, months[1..], env);
      }
    }
  }

  /** After a completed loop the bookmark is the ISO rendering of the last
      `end_time` that parsed, or what it was if none did. */
  lemma {:induction false} MonthsBookmark(st: State, months: seq<YearMonth>, env: Environment)
    requires Writable(st, Stream)
    requires Months(st, months, env).status.Completed?
    ensures GetBookmark(Months(st, months, env).state, Stream, BookmarkKey) ==
      if LastEnd(months, env).Some? then Present(Str(IsoFormat(LastEnd(months, env).value)))
      else GetBookmark(st, Stream, BookmarkKey)
    decreases |months|
  {
    if |months| > 0 {
      StepFacts(st, months[0], env);
      var first := MonthStep(st, months[0], env);
      MonthsBookmark(first.state, months[1..], env);
    }
  }

  // ---------------------------------------------------------------------
  // Properties of the whole pass

  /** The SCHEMA message (key property `invoice_id`) comes first and only
      once, unless the start bookmark cannot be read, in which case nothing
      at all is written. The months are fetched in order, one call each, and
      a pass that completes has written exactly the truthy results. */
  lemma SyncBillsOutline(st: State, schema: Value, env: Environment)
    requires Valid(env.now)
    ensures var r := SyncBills(st, schema, env);
      Start(st).None? ==> r.messages == [] && r.calls == [] && r.state == st && r.status.Aborted?
    ensures var r := SyncBills(st, schema, env);
      Start(st).Some? ==> SchemaFirst(r.messages, Stream, schema, KeyProperties)
    ensures var r := SyncBills(st, schema, env);
      Start(st).Some? ==>
        var months := MonthRange(Start(st).value, env.now);
        && |r.calls| <= |months|
        && (forall i :: 0 <= i < |r.calls| ==> r.calls[i] == BillCall(months[i]))
        && (r.status.Completed? <==> forall i :: 0 <= i < |months| ==> Usable(env.bill(months[i])))
        && (r.status.Completed? ==> |r.calls| == |months| && Records(r.messages) == Emitted(months, env))
    ensures var r := SyncBills(st, schema, env);
      r.state == if |States(r.messages)| > 0 then States(r.messages)[|States(r.messages)| - 1] else st
  {
    if Start(st).Some? {
      SyncBillsFromStart(st, schema, env);
      PassOutline(st, schema, MonthRange(Start(st).value, env.now), env);
    }
  }

  /** However a pass with a readable start ends, after its SCHEMA message it
      has written the truthy replies of exactly the months it requested. */
  lemma SyncBillsWritesRequested(st: State, schema: Value, env: Environment)
    requires Valid(env.now) && Start(st).Some?
    ensures var r := SyncBills(st, schema, env);
      var months := MonthRange(Start(st).value, env.now);
      |r.calls| <= |months| && Records(r.messages) == Emitted(months[..|r.calls|], env)
  {
    var months := MonthRange(Start(st).value, env.now);
    var pass := Months(st, months, env);
    SyncBillsFromStart(st, schema, env);
    MonthsWriteRequested(st, months, env);
    RecordsAppend([SchemaMessage(Stream, schema, KeyProperties)], pass.messages);
  }

  /** `SyncBillsOutline` for any list of months. */
  lemma PassOutline(st: State, schema: Value, months: seq<YearMonth>, env: Environment)
    ensures var r := WithSchema(schema, Months(st, months, env));
      && SchemaFirst(r.messages, Stream, schema, KeyProperties)
      && |r.calls| <= |months|
      && (forall i :: 0 <= i < |r.calls| ==> r.calls[i] == BillCall(months[i]))
      && (r.status.Completed? <==> forall i :: 0 <= i < |months| ==> Usable(env.bill(months[i])))
      && (r.status.Completed? ==> |r.calls| == |months| && Records(r.messages) == Emitted(months, env))
      && r.state == if |States(r.messages)| > 0 then States(r.messages)[|States(r.messages)| - 1] else st
  {
    var pass := Months(st, months, env);
    var r := WithSchema(schema, pass);
    var head := [SchemaMessage(Stream, schema, KeyProperties)];
    assert r.messages[1..] == pass.messages;
    MonthsCompleteIff(st, months, env);
    MonthsStateIsLastWritten(st, months, env);
    RecordsAppend(head, pass.messages);
    if pass.status.Completed? {
      MonthsRecords(st, months, env);
    }
  }

  /** A month whose reply is a bill with a parsable `end_time`. */
  predicate Billed(reply: Reply) {
    Usable(reply) && EndTime(reply).Some?
  }

  lemma {:induction false} LastEndOfBilled(months: seq<YearMonth>, env: Environment)
    requires |months| > 0 && Billed(env.bill(months[|months| - 1]))
    ensures LastEnd(months, env) == EndTime(env.bill(months[|months| - 1]))
    decreases |months|
  {
    if |months| > 1 {
      LastEndOfBilled(months[1..], env);
    }
  }

  lemma {:induction false} EmittedOfBilled(months: seq<YearMonth>, env: Environment)
    requires forall i :: 0 <= i < |months| ==> Billed(env.bill(months[i]))
    ensures |Emitted(months, env)| == |months|
    decreases |months|
  {
    if |months| > 0 {
      EmittedOfBilled(months[1..], env);
    }
  }

  /** A loop over months that all have a bill with a parsable `end_time`
      completes, writes one record per month and leaves the bookmark at the
      last month's `end_time`. */
  lemma MonthsAllBilled(st: State, months: seq<YearMonth>, env: Environment)
    requires Writable(st, Stream) && |months| > 0
    requires forall i :: 0 <= i < |months| ==> Billed(env.bill(months[i]))
    ensures var r := Months(st, months, env);
      && r.status.Completed?
      && |Records(r.messages)| == |months|
      && var end := EndTime(env.bill(months[|months| - 1]));
         end.Some? && GetBookmark(r.state, Stream, BookmarkKey) == Present(Str(IsoFormat(end.value)))
  {
    assert forall i :: 0 <= i < |months| ==> Usable(env.bill(months[i]));
    MonthsCompleteIff(st, months, env);
    MonthsRecords(st, months, env);
    EmittedOfBilled(months, env);
    LastEndOfBilled(months, env);
    MonthsBookmark(st, months, env);
  }

  /** What a pass over `months` leaves when every month was billed: it
      completes, writes one record per month, and leaves the bookmark at the
      last month's `end_time`, in ISO form. */
  predicate AllBilled(r: Run, months: seq<YearMonth>, env: Environment) {
    && |months| > 0
    && r.status.Completed?
    && |Records(r.messages)| == |months|
    && var end := EndTime(env.bill(months[|months| - 1]));
       end.Some? && GetBookmark(r.state, Stream, BookmarkKey) == Present(Str(IsoFormat(end.value)))
  }

  /** When every month of the period has a bill with a parsable `end_time`,
      the pass writes exactly one record per month and leaves the bookmark
      at the last month's `end_time`, in ISO form. */
  lemma EveryMonthBilled(st: State, schema: Value, env: Environment)
    requires Valid(env.now) && Start(st).Some? && Writable(st, Stream)
    requires var months := MonthRange(Start(st).value, env.now);
      forall i :: 0 <= i < |months| ==> Billed(env.bill(months[i]))
    ensures AllBilled(SyncBills(st, schema, env), MonthRange(Start(st).value, env.now), env)
  {
    SyncBillsFromStart(st, schema, env);
    PassAllBilled(st, schema, MonthRange(Start(st).value, env.now), env);
  }

  /** With a readable start, the pass is the month loop over the default
      period, preceded by the SCHEMA message. */
  lemma SyncBillsFromStart(st: State, schema: Value, env: Environment)
    requires Valid(env.now) && Start(st).Some?
    ensures SyncBills(st, schema, env) == WithSchema(schema, Months(st, MonthRange(Start(st).value, env.now), env))
  {
  }

  /** `EveryMonthBilled` for any non-empty list of months. */
  lemma PassAllBilled(st: State, schema: Value, months: seq<YearMonth>, env: Environment)
    requires Writable(st, Stream) && |months| > 0
    requires forall i :: 0 <= i < |months| ==> Billed(env.bill(months[i]))
    ensures AllBilled(WithSchema(schema, Months(st, months, env)), months, env)
  {
    var pass := Months(st, months, env);
    MonthsAllBilled(st, months, env);
    RecordsAppend([SchemaMessage(Stream, schema, KeyProperties)], pass.messages);
  }
}

=== FILE: bookmarks.dfy ===
/** The sync state and singer's bookmark helpers over it. */
module Bookmarks {
  import opened Wrappers
  import opened Json

  /** The sync state: a JSON object, normally
      `{"bookmarks": {<stream>: {<key>: <value>}}}`. */
  type State = Fields

  /** The outcome of `singer.get_bookmark(state, stream, key)`: it raises
      (`Unreadable`) when a level on the path is present but is not a dict,
      returns `None` (`Absent`) when a level or the value is missing or null,
      and otherwise the stored value. */
  datatype Lookup = Unreadable | Absent | Present(value: Value)

  /** `state.get("bookmarks")`, when it is there. */
  function BookmarksOf(st: State): Option<Value> {
    Get(st, "bookmarks")
  }

  /** `state["bookmarks"][stream]`, when both levels are there. */
  function StreamEntry(st: State, stream: string): Option<Value> {
    match BookmarksOf(st)
    case Some(Obj(bf)) => Get(bf, stream)
    case _ => None
  }

  /** The bookmark dict of `stream`, or an empty one when there is none. */
  function StreamFields(st: State, stream: string): Fields {
    match StreamEntry(st, stream)
    case Some(Obj(sf)) => sf
    case _ => []
  }

  /** One level of `get_bookmark`: `d.get(k, {})` on a present level.
      A missing member reads as `{}`; a null one comes back as `None`, whose
      `.get` raises. */
  function Level(v: Option<Value>): Option<Fields> {
    match v
    case None => Some([])
    case Some(Obj(f)) => Some(f)
    case Some(_) => None
  }

  /** The last step of `get_bookmark`: `.get(key)` on the stream's level. */
  function ReadKey(level: Option<Fields>, key: string): (r: Lookup)
    ensures r.Present? ==> r.value != Null
  {
    match level
    case None => Unreadable
    case Some(sf) =>
      match Get(sf, key)
      case None => Absent
      case Some(Null) => Absent
      case Some(v) => Present(v)
  }

  /** `get_bookmark` from the bookmarks level down. */
  function ReadStream(level: Option<Fields>, stream: string, key: string): (r: Lookup)
    ensures r.Present? ==> r.value != Null
  {
    match level
    case None => Unreadable
    case Some(bf) => ReadKey(Level(Get(bf, stream)), key)
  }

  /** `singer.get_bookmark(state, stream, key)`. */
  function GetBookmark(st: State, stream: string, key: string): (r: Lookup)
    ensures r.Present? ==> r.value != Null
  {
    ReadStream(Level(BookmarksOf(st)), stream, key)
  }

  /** One level of `ensure_bookmark_path`: a missing or null member is
      replaced by `{}`; a member that is not a dict makes the final item
      assignment raise. */
  function Container(v: Option<Value>): Option<Fields> {
    match v
    case None => Some([])
    case Some(Null) => Some([])
    case Some(Obj(f)) => Some(f)
    case Some(_) => None
  }

  /** Both levels of the path to `stream`'s bookmarks can be made dicts. */
  predicate Writable(st: State, stream: string) {
    Container(BookmarksOf(st)).Some? && Container(Get(Container(BookmarksOf(st)).value, stream)).Some?
  }

  /** `singer.write_bookmark(state, stream, key, val)`: the state with
      `state["bookmarks"][stream][key] = val`, or `None` where it raises. */
  function WriteBookmark(st: State, stream: string, key: string, val: Value): (r: Option<State>)
    ensures r.Some? <==> Writable(st, stream)
    ensures r.Some? ==> GetBookmark(r.value, stream, key) == (if val == Null then Absent else Present(val))
    ensures r.Some? ==> forall k :: k != "bookmarks" ==> Get(r.value, k) == Get(st, k)
    ensures r.Some? ==> forall s :: s != stream ==> StreamEntry(r.value, s) == StreamEntry(st, s)
  {
    if Writable(st, stream) then
      WrittenReads(st, stream, key, val);
      WrittenKeeps(st, stream, key, val);
      Some(Written(st, stream, key, val))
    else None
  }

  /** The state a write that succeeds produces. */
  function Written(st: State, stream: string, key: string, val: Value): State
    requires Writable(st, stream)
  {
    var bf := Container(BookmarksOf(st)).value;
    var sf := Container(Get(bf, stream)).value;
    Set(st, "bookmarks", Obj(Set(bf, stream, Obj(Set(sf, key, val)))))
  }

  lemma WrittenReads(st: State, stream: string, key: string, val: Value)
    requires Writable(st, stream)
    ensures GetBookmark(Written(st, stream, key, val), stream, key) == (if val == Null then Absent else Present(val))
  {
    var bf := Container(BookmarksOf(st)).value;
    var sf := Container(Get(bf, stream)).value;
    var streamMap := Set(sf, key, val);
    var bookmarks := Set(bf, stream, Obj(streamMap));
    var r := Set(st, "bookmarks", Obj(bookmarks));
    assert Written(st, stream, key, val) == r;
    assert Level(BookmarksOf(r)) == Some(bookmarks);
    assert Level(Get(bookmarks, stream)) == Some(streamMap);
  }

  lemma WrittenKeeps(st: State, stream: string, key: string, val: Value)
    requires Writable(st, stream)
    ensures forall k :: k != "bookmarks" ==> Get(Written(st, stream, key, val), k) == Get(st, k)
    ensures forall s :: s != stream ==> StreamEntry(Written(st, stream, key, val), s) == StreamEntry(st, s)
  {
    var bf := Container(BookmarksOf(st)).value;
    var sf := Container(Get(bf, stream)).value;
    var bookmarks := Set(bf, stream, Obj(Set(sf, key, val)));
    var r := Set(st, "bookmarks", Obj(bookmarks));
    assert Written(st, stream, key, val) == r;
    assert BookmarksOf(r) == Some(Obj(bookmarks));
    forall s | s != stream
      ensures StreamEntry(r, s) == StreamEntry(st, s)
    {
      assert StreamEntry(r, s) == Get(bf, s);
    }
  }

  /** Within the written stream only `key` changes, and the state's members
      keep their order (`bookmarks` is appended if it was missing). */
  lemma WriteKeepsOtherKeys(st: State, stream: string, key: string, val: Value)
    requires WriteBookmark(st, stream, key, val).Some?
    ensures var r := WriteBookmark(st, stream, key, val).value;
      && (forall k :: k != key ==> Get(StreamFields(r, stream), k) == Get(StreamFields(st, stream), k))
      && Keys(r) == if "bookmarks" in Keys(st) then Keys(st) else Keys(st) + ["bookmarks"]
  {
    var bf := Container(BookmarksOf(st)).value;
    var sf := Container(Get(bf, stream)).value;
    var streamMap := Set(sf, key, val);
    var bookmarks := Set(bf, stream, Obj(streamMap));
    var r := Set(st, "bookmarks", Obj(bookmarks));
    assert WriteBookmark(st, stream, key, val) == Some(r);
    StreamFieldsOfWritable(st, stream);
    assert StreamFields(r, stream) == streamMap by {
      assert BookmarksOf(r) == Some(Obj(bookmarks));
      assert StreamEntry(r, stream) == Some(Obj(streamMap));
    }
  }

  /** The bookmark dict of a stream whose path is writable is the one the
      write starts from. */
  lemma StreamFieldsOfWritable(st: State, stream: string)
    requires Writable(st, stream)
    ensures StreamFields(st, stream) == Container(Get(Container(BookmarksOf(st)).value, stream)).value
  {
  }

  /** Writing one stream's bookmark leaves what every other stream's
      bookmarks read as, as long as the bookmarks member was readable. */
  lemma WriteKeepsOtherStreams(st: State, stream: string, key: string, val: Value, other: string, k: string)
    requires WriteBookmark(st, stream, key, val).Some?
    requires BookmarksOf(st) != Some(Null)
    requires other != stream
    ensures GetBookmark(WriteBookmark(st, stream, key, val).value, other, k) == GetBookmark(st, other, k)
  {
    var bf := Container(BookmarksOf(st)).value;
    var sf := Container(Get(bf, stream)).value;
    var bookmarks := Set(bf, stream, Obj(Set(sf, key, val)));
    var r := Set(st, "bookmarks", Obj(bookmarks));
    assert WriteBookmark(st, stream, key, val).value == r;
    assert Level(BookmarksOf(st)) == Some(bf);
    assert Level(BookmarksOf(r)) == Some(bookmarks);
    calc {
      GetBookmark(r, other, k);
      ReadKey(Level(Get(bookmarks, other)), k);
      { assert Get(bookmarks, other) == Get(bf, other); }
      ReadKey(Level(Get(bf, other)), k);
      GetBookmark(st, other, k);
    }
  }

  /** Once the path to a stream is writable it stays writable: writes by any
      stream never turn a level into a non-dict. */
  lemma WriteKeepsWritable(st: State, stream: string, key: string, val: Value, other: string)
    requires WriteBookmark(st, stream, key, val).Some? && Writable(st, other)
    ensures Writable(WriteBookmark(st, stream, key, val).value, other)
  {
  }

  /** The state `main` starts from, before the caller's state is merged in. */
  function DefaultState(startDate: string): State {
    [("bookmarks", Obj([("bills", Obj([("start_time", Str(startDate))]))]))]
  }

  /** `state.update(other)`: each member of `other` in turn is set on `state`. */
  function Update(st: State, other: Fields): (r: State)
    requires Distinct(Keys(other))
    ensures forall k :: Get(r, k) == if k in Keys(other) then Get(other, k) else Get(st, k)
    decreases |other|
  {
    if |other| == 0 then st
    else
      assert Keys(other) == [other[0].0] + Keys(other[1..]);
      var r := Update(Set(st, other[0].0, other[0].1), other[1..]);
      assert forall k :: k in Keys(other) <==> k == other[0].0 || k in Keys(other[1..]);
      assert other[0].0 !in Keys(other[1..]);
      r
  }

  /** The state `main` hands to the sync: the default bills bookmark at the
      config's `start_date`, shallowly overridden by the caller's state. */
  function InitialState(startDate: string, caller: Fields): (r: State)
    requires Distinct(Keys(caller))
    ensures forall k :: k != "bookmarks" ==> Get(r, k) == Get(caller, k)
    ensures "bookmarks" in Keys(caller) ==> BookmarksOf(r) == Get(caller, "bookmarks")
    ensures "bookmarks" !in Keys(caller) ==> GetBookmark(r, "bills", "start_time") == Present(Str(startDate))
    ensures "bookmarks" !in Keys(caller) ==>
      BookmarksOf(r) == Some(Obj([("bills", Obj([("start_time", Str(startDate))]))]))
    ensures "bookmarks" !in Keys(caller) ==> forall s, k :: s != "bills" ==> GetBookmark(r, s, k) == Absent
  {
    Update(DefaultState(startDate), caller)
  }
}

=== FILE: catalog.dfy ===
/** The catalog side of the tap: `discover` builds a catalog from the bundled
    schema documents, `get_selected_streams` reads which streams the catalog
    selects, and `create_sync_tasks` picks the streams to sync. Catalogs and
    schema documents are JSON values, as the functions handle them. */
module Catalog {
  import opened Wrappers
  import opened Json

  // ---------------------------------------------------------------------
  // Positions of a sequence that satisfy a condition

  /** The positions at or after `from` of the items that `keep` accepts, in
      increasing order. */
  function Positions(items: seq<Value>, keep: Value -> bool, from: nat): (ps: seq<nat>)
    requires from <= |items|
    ensures forall k :: 0 <= k < |ps| ==> from <= ps[k] < |items| && keep(items[ps[k]])
    ensures forall k, l :: 0 <= k < l < |ps| ==> ps[k] < ps[l]
    ensures forall i :: from <= i < |items| && keep(items[i]) ==> i in ps
    decreases |items| - from
  {
    if from == |items| then []
    else (if keep(items[from]) then [from] else []) + Positions(items, keep, from + 1)
  }

  // ---------------------------------------------------------------------
  // Discovery

  /** `v[i]` on a list; any other value gives nothing a later string
      subscript could use. */
  function At(v: Value, i: nat): Option<Value> {
    if v.Arr? && i < |v.items| then Some(v.items[i]) else None
  }

  /** `o[k]` on a lookup that may already have failed. */
  function Key(o: Option<Value>, k: string): Option<Value> {
    if o.Some? then Subscript(o.value, k) else None
  }

  /** `o[0]` on a lookup that may already have failed. */
  function Index0(o: Option<Value>): Option<Value> {
    if o.Some? then At(o.value, 0) else None
  }

  /** `schema['streams'][0]`. */
  function FirstStream(doc: Value): Option<Value> {
    Index0(Key(Some(doc), "streams"))
  }

  /** `schema['streams'][0]['metadata'][0]['metadata']['table-key-properties']`. */
  function KeyPropertiesOf(doc: Value): Option<Value> {
    Key(Key(Index0(Key(FirstStream(doc), "metadata")), "metadata"), "table-key-properties")
  }

  /** What `discover` copies out of `schema['streams'][0]`. */
  datatype Projection = Projection(schema: Value, metadata: Value, keyProperties: Value)

  /** The lookups of `discover` on one schema document; `None` where one of
      them raises. */
  function Project(doc: Value): (r: Option<Projection>)
    ensures r.Some? <==> Key(FirstStream(doc), "schema").Some? && KeyPropertiesOf(doc).Some?
    ensures r.Some? ==>
      && Key(FirstStream(doc), "schema") == Some(r.value.schema)
      && Key(FirstStream(doc), "metadata") == Some(r.value.metadata)
      && KeyPropertiesOf(doc) == Some(r.value.keyProperties)
  {
    var streams :- Subscript(doc, "streams");
    var first :- At(streams, 0);
    var schema :- Subscript(first, "schema");
    var metadata :- Subscript(first, "metadata");
    var root :- At(metadata, 0);
    var inner :- Subscript(root, "metadata");
    var keys :- Subscript(inner, "table-key-properties");
    Some(Projection(schema, metadata, keys))
  }

  /** The catalog entry `discover` builds for schema `name`. */
  function CatalogEntry(name: string, p: Projection): Value {
    Obj([("stream", Str(name)), ("tap_stream_id", Str(name)), ("schema", p.schema),
         ("metadata", p.metadata), ("key_properties", p.keyProperties)])
  }

  /** The members of a catalog entry, by name. */
  lemma CatalogEntryMembers(name: string, p: Projection)
    ensures var f := CatalogEntry(name, p).fields;
      && Get(f, "stream") == Some(Str(name))
      && Get(f, "tap_stream_id") == Some(Str(name))
      && Get(f, "schema") == Some(p.schema)
      && Get(f, "metadata") == Some(p.metadata)
      && Get(f, "key_properties") == Some(p.keyProperties)
  {
    var f := CatalogEntry(name, p).fields;
    var f1, f2, f3, f4 := f[1..], f[2..], f[3..], f[4..];
    assert f1[1..] == f2 && f2[1..] == f3 && f3[1..] == f4;
    assert "stream"[1] != "schema"[1];
    assert f[0].0 != "schema";
    assert Get(f, "schema") == Get(f1, "schema");
    assert Get(f1, "schema") == Get(f2, "schema");
    assert Get(f2, "schema") == Some(p.schema);
    assert Get(f3, "key_properties") == Some(p.keyProperties);
    assert Get(f2, "metadata") == Some(p.metadata);
    assert Get(f2, "key_properties") == Some(p.keyProperties);
  }

  /** The entries for `docs`, the schema documents by name in listing order. */
  function Entries(docs: seq<(string, Value)>): (r: Option<seq<Value>>)
    ensures r.Some? <==> forall i :: 0 <= i < |docs| ==> Project(docs[i].1).Some?
    ensures r.Some? ==> |r.value| == |docs|
  {
    EntriesBy(docs, Project)
  }

  /** The entries for `docs` with each document read by `project`; `None`
      as soon as one document cannot be read. */
  function EntriesBy(docs: seq<(string, Value)>, project: Value -> Option<Projection>): (r: Option<seq<Value>>)
    ensures r.Some? <==> forall i :: 0 <= i < |docs| ==> project(docs[i].1).Some?
    ensures r.Some? ==> |r.value| == |docs|
    decreases |docs|
  {
    if |docs| == 0 then Some([])
    else
      match project(docs[0].1)
      case None => None
      case Some(p) =>
        var rest := EntriesBy(docs[1..], project);
        assert forall i :: 1 <= i < |docs| ==> docs[i] == docs[1..][i - 1];
        match rest
        case None => None
        case Some(es) => Some([CatalogEntry(docs[0].0, p)] + es)
  }

  /** The `i`-th entry is built from the `i`-th document. */
  lemma {:induction false} EntryAtBy(docs: seq<(string, Value)>, project: Value -> Option<Projection>, i: nat)
    requires EntriesBy(docs, project).Some? && i < |docs|
    ensures project(docs[i].1).Some?
    ensures EntriesBy(docs, project).value[i] == CatalogEntry(docs[i].0, project(docs[i].1).value)
    decreases |docs|
  {
    var p := project(docs[0].1).value;
    assert EntriesBy(docs, project).value == [CatalogEntry(docs[0].0, p)] + EntriesBy(docs[1..], project).value;
    if i > 0 {
      assert docs[1..][i - 1] == docs[i];
      EntryAtBy(docs[1..], project, i - 1);
    }
  }

  /** `discover()`: `{'streams': [...]}` with one entry per schema document. */
  function Discover(docs: seq<(string, Value)>): (r: Option<Value>)
    ensures r.Some? <==> Entries(docs).Some?
  {
    var entries :- Entries(docs);
    Some(Obj([("streams", Arr(entries))]))
  }

  /** Each discovered entry names its stream after its schema document, both
      as `stream` and as `tap_stream_id`, and copies the schema, the metadata
      and the root metadata's `table-key-properties` of the document's first
      stream. */
  lemma DiscoveredEntry(docs: seq<(string, Value)>, i: nat)
    requires Discover(docs).Some? && i < |docs|
    ensures var entry := Index(Key(Discover(docs), "streams"), i);
      && entry.Some?
      && Key(entry, "stream") == Some(Str(docs[i].0))
      && Key(entry, "tap_stream_id") == Some(Str(docs[i].0))
      && Key(entry, "schema") == Key(FirstStream(docs[i].1), "schema")
      && Key(entry, "metadata") == Key(FirstStream(docs[i].1), "metadata")
      && Key(entry, "key_properties") == KeyPropertiesOf(docs[i].1)
  {
    var es := Entries(docs).value;
    assert Key(Discover(docs), "streams") == Some(Arr(es));
    EntryAtBy(docs, Project, i);
    var p := Project(docs[i].1).value;
    var fields := CatalogEntry(docs[i].0, p).fields;
    assert Index(Key(Discover(docs), "streams"), i) == Some(Obj(fields));
    CatalogEntryMembers(docs[i].0, p);
  }

  /** `o[i]` on a lookup that may already have failed. */
  function Index(o: Option<Value>, i: nat): Option<Value> {
    if o.Some? then At(o.value, i) else None
  }

  // ---------------------------------------------------------------------
  // Selection

  /** `tuple(md['breadcrumb'])`, when every element can be a dict key. */
  function Breadcrumb(md: Value): Option<seq<Value>> {
    var b :- Subscript(md, "breadcrumb");
    var items :- Iterate(b);
    if forall i :: 0 <= i < |items| ==> !items[i].Arr? && !items[i].Obj? then Some(items) else None
  }

  /** The entry `metadata.to_map(raw)` holds under the empty breadcrumb `()`. */
  datatype RootLookup = Broken | Missing | Found(metadata: Value)

  /** Where the comprehension of `to_map` files one entry: nowhere (it
      raises), under `()`, or under another breadcrumb. */
  datatype Filed = Unfiled | AtRoot(metadata: Value) | Elsewhere

  function Filing(e: Value): Filed {
    if Breadcrumb(e).None? || Subscript(e, "metadata").None? then Unfiled
    else if |Breadcrumb(e).value| == 0 then AtRoot(Subscript(e, "metadata").value)
    else Elsewhere
  }

  /** The root entry among `entries`, each filed by `file`: the last one
      filed under `()`, or `Broken` when any entry cannot be filed. */
  function RootAmong(entries: seq<Value>, file: Value -> Filed): RootLookup
    decreases |entries|
  {
    if |entries| == 0 then Missing
    else if file(entries[0]).Unfiled? then Broken
    else
      match RootAmong(entries[1..], file)
      case Missing => if file(entries[0]).AtRoot? then Found(file(entries[0]).metadata) else Missing
      case other => other
  }

  /** `metadata.to_map(entries)[()]`: the `metadata` of the last entry whose
      breadcrumb is empty, the comprehension raising on any malformed entry. */
  function RootOf(entries: seq<Value>): RootLookup {
    RootAmong(entries, Filing)
  }

  /** An entry the comprehension accepts, at a breadcrumb other than `()`. */
  predicate NonRoot(e: Value) {
    Breadcrumb(e).Some? && |Breadcrumb(e).value| > 0 && Subscript(e, "metadata").Some?
  }

  /** An entry the comprehension accepts, at the breadcrumb `()`. */
  predicate Root(e: Value) {
    Breadcrumb(e).Some? && |Breadcrumb(e).value| == 0 && Subscript(e, "metadata").Some?
  }

  lemma {:induction false} IgnoredAmong(entries: seq<Value>, e: Value, file: Value -> Filed)
    requires file(e).Elsewhere?
    ensures RootAmong(entries + [e], file) == RootAmong(entries, file)
    decreases |entries|
  {
    if |entries| == 0 {
      assert [e][1..] == [];
    } else {
      var x := entries + [e];
      assert x[0] == entries[0] && x[1..] == entries[1..] + [e];
      IgnoredAmong(entries[1..], e, file);
    }
  }

  lemma {:induction false} LastAmongWins(entries: seq<Value>, e: Value, file: Value -> Filed)
    requires file(e).AtRoot? && RootAmong(entries, file) != Broken
    ensures RootAmong(entries + [e], file) == Found(file(e).metadata)
    decreases |entries|
  {
    if |entries| == 0 {
      assert [e][1..] == [];
    } else {
      var x := entries + [e];
      assert x[0] == entries[0] && x[1..] == entries[1..] + [e];
      LastAmongWins(entries[1..], e, file);
    }
  }

  /** Adding an entry at another breadcrumb never changes the root entry. */
  lemma RootIgnoresOtherBreadcrumbs(entries: seq<Value>, e: Value)
    requires NonRoot(e)
    ensures RootOf(entries + [e]) == RootOf(entries)
  {
    IgnoredAmong(entries, e, Filing);
  }

  /** A later root entry replaces an earlier one: the last one wins. */
  lemma LastRootWins(entries: seq<Value>, e: Value)
    requires Root(e) && RootOf(entries) != Broken
    ensures RootOf(entries + [e]) == Found(Subscript(e, "metadata").value)
  {
    LastAmongWins(entries, e, Filing);
  }

  /** `metadata.get(metadata.to_map(stream['metadata']), (), "selected")`,
      taken as a condition; `None` where it raises. */
  function Selected(stream: Value): Option<bool> {
    var raw :- Subscript(stream, "metadata");
    var entries :- Iterate(raw);
    match RootOf(entries)
    case Broken => None
    case Missing => Some(false)
    case Found(m) =>
      if m.Obj? then
        match Get(m.fields, "selected")
        case Some(v) => Some(Truthy(v))
        case None => Some(false)
      else None
  }

  /** A stream whose root metadata has a truthy `selected`. */
  predicate IsSelected(stream: Value) {
    Selected(stream) == Some(true)
  }

  // ---------------------------------------------------------------------
  // A loop that collects one value from some of the items

  /** What one pass of such a loop does with an item. */
  datatype Step<T> = Raise | Skip | Take(value: T)

  /** The items a pass collects from. */
  function Taken<T>(step: Value -> Step<T>): Value -> bool {
    v => step(v).Take?
  }

  /** The loop over `items` from position `from` on; `None` when a pass
      raises. */
  function Collect<T>(items: seq<Value>, step: Value -> Step<T>, from: nat): (r: Option<seq<T>>)
    requires from <= |items|
    ensures r.Some? <==> forall i :: from <= i < |items| ==> !step(items[i]).Raise?
    decreases |items| - from
  {
    if from == |items| then Some([])
    else
      match step(items[from])
      case Raise => None
      case Skip => Collect(items, step, from + 1)
      case Take(t) =>
        match Collect(items, step, from + 1)
        case None => None
        case Some(rest) => Some([t] + rest)
  }

  /** The `k`-th value collected comes from the `k`-th item a pass takes. */
  lemma {:induction false} CollectPositions<T>(items: seq<Value>, step: Value -> Step<T>, from: nat)
    requires from <= |items| && Collect(items, step, from).Some?
    ensures var r := Collect(items, step, from).value;
      var ps := Positions(items, Taken(step), from);
      && |r| == |ps|
      && forall k :: 0 <= k < |ps| ==> step(items[ps[k]]) == Take(r[k])
    decreases |items| - from
  {
    if from < |items| {
      CollectPositions(items, step, from + 1);
      var rest := Collect(items, step, from + 1).value;
      var later := Positions(items, Taken(step), from + 1);
      var r := Collect(items, step, from).value;
      var ps := Positions(items, Taken(step), from);
      if step(items[from]).Take? {
        PrependTaken(items, step, from, rest, later);
      } else {
        assert r == rest && ps == later;
      }
    }
  }

  /** Putting a taken item in front of a matched run keeps it matched. */
  lemma PrependTaken<T>(items: seq<Value>, step: Value -> Step<T>, from: nat, rest: seq<T>, later: seq<nat>)
    requires from < |items| && step(items[from]).Take?
    requires |rest| == |later| && forall k :: 0 <= k < |later| ==> later[k] < |items| && step(items[later[k]]) == Take(rest[k])
    ensures var r := [step(items[from]).value] + rest;
      var ps := [from] + later;
      |r| == |ps| && forall k :: 0 <= k < |ps| ==> ps[k] < |items| && step(items[ps[k]]) == Take(r[k])
  {
  }

  // ---------------------------------------------------------------------
  // `get_selected_streams`

  /** One pass of `get_selected_streams`: a selected stream's
      `tap_stream_id` is appended, read only for such a stream. */
  function SelectStep(stream: Value): (r: Step<Value>)
    ensures r.Take? <==> IsSelected(stream) && Subscript(stream, "tap_stream_id").Some?
    ensures r.Take? ==> Subscript(stream, "tap_stream_id") == Some(r.value)
    ensures r.Skip? <==> Selected(stream) == Some(false)
  {
    match Selected(stream)
    case None => Raise
    case Some(false) => Skip
    case Some(true) =>
      match Subscript(stream, "tap_stream_id")
      case None => Raise
      case Some(id) => Take(id)
  }

  /** The streams of a catalog, `catalog['streams']` iterated. */
  function Streams(catalog: Value): Option<seq<Value>> {
    var streams :- Subscript(catalog, "streams");
    Iterate(streams)
  }

  /** `get_selected_streams(catalog)`. */
  function SelectedStreams(catalog: Value): (r: Option<seq<Value>>)
    ensures r.Some? <==> Streams(catalog).Some? && forall i :: 0 <= i < |Streams(catalog).value| ==>
      !SelectStep(Streams(catalog).value[i]).Raise?
  {
    var streams :- Streams(catalog);
    Collect(streams, SelectStep, 0)
  }

  /** The selected ids are those of the selected streams, in catalog order:
      the `k`-th id belongs to the `k`-th stream whose root metadata has a
      truthy `selected`. A stream without that flag contributes nothing, and
      every stream with it contributes its id. */
  lemma SelectionIsInOrder(catalog: Value)
    requires SelectedStreams(catalog).Some?
    ensures var streams := Streams(catalog).value;
      var ids := SelectedStreams(catalog).value;
      var ps := Positions(streams, Taken(SelectStep), 0);
      && |ids| == |ps|
      && (forall k :: 0 <= k < |ps| ==> IsSelected(streams[ps[k]]) && Subscript(streams[ps[k]], "tap_stream_id") == Some(ids[k]))
      && (forall k, l :: 0 <= k < l < |ps| ==> ps[k] < ps[l])
      && (forall i :: 0 <= i < |streams| ==> (IsSelected(streams[i]) <==> i in ps))
  {
    var streams := Streams(catalog).value;
    CollectPositions(streams, SelectStep, 0);
    var ps := Positions(streams, Taken(SelectStep), 0);
    forall i | 0 <= i < |streams|
      ensures IsSelected(streams[i]) <==> i in ps
    {
      assert !SelectStep(streams[i]).Raise?;
      if i in ps {
        var k :| 0 <= k < |ps| && ps[k] == i;
      }
    }
  }

  /** Every selected id is the id of a selected stream of the catalog, and
      every selected stream's id is among them. */
  lemma SelectionMembership(catalog: Value, id: Value)
    requires SelectedStreams(catalog).Some?
    ensures var streams := Streams(catalog).value;
      id in SelectedStreams(catalog).value <==>
        exists i :: 0 <= i < |streams| && IsSelected(streams[i]) && Subscript(streams[i], "tap_stream_id") == Some(id)
  {
    var streams := Streams(catalog).value;
    if id in SelectedStreams(catalog).value {
      SelectedIdHasStream(catalog, id);
    }
    if exists i :: 0 <= i < |streams| && IsSelected(streams[i]) && Subscript(streams[i], "tap_stream_id") == Some(id) {
      var i :| 0 <= i < |streams| && IsSelected(streams[i]) && Subscript(streams[i], "tap_stream_id") == Some(id);
      SelectedStreamHasId(catalog, i);
    }
  }

  lemma SelectedIdHasStream(catalog: Value, id: Value)
    requires SelectedStreams(catalog).Some? && id in SelectedStreams(catalog).value
    ensures var streams := Streams(catalog).value;
      exists i :: 0 <= i < |streams| && IsSelected(streams[i]) && Subscript(streams[i], "tap_stream_id") == Some(id)
  {
    var streams := Streams(catalog).value;
    var ids := SelectedStreams(catalog).value;
    var ps := Positions(streams, Taken(SelectStep), 0);
    SelectionIsInOrder(catalog);
    var k :| 0 <= k < |ids| && ids[k] == id;
    assert IsSelected(streams[ps[k]]) && Subscript(streams[ps[k]], "tap_stream_id") == Some(id);
  }

  lemma SelectedStreamHasId(catalog: Value, i: nat)
    requires SelectedStreams(catalog).Some?
    requires i < |Streams(catalog).value| && IsSelected(Streams(catalog).value[i])
    ensures Subscript(Streams(catalog).value[i], "tap_stream_id").Some?
    ensures Subscript(Streams(catalog).value[i], "tap_stream_id").value in SelectedStreams(catalog).value
  {
    var streams := Streams(catalog).value;
    var ids := SelectedStreams(catalog).value;
    var ps := Positions(streams, Taken(SelectStep), 0);
    SelectionIsInOrder(catalog);
    var k :| 0 <= k < |ps| && ps[k] == i;
    assert Subscript(streams[i], "tap_stream_id") == Some(ids[k]);
  }

  // ---------------------------------------------------------------------
  // `create_sync_tasks`

  /** One pass of the generator of `create_sync_tasks`: every stream's
      `tap_stream_id` is read, and a stream whose id is in `ids` yields its
      id and its schema. */
  function TaskOf(ids: seq<Value>, stream: Value): (r: Step<(Value, Value)>)
    ensures r.Take? ==>
      r.value.0 in ids && Subscript(stream, "tap_stream_id") == Some(r.value.0) && Subscript(stream, "schema") == Some(r.value.1)
    ensures r.Skip? <==> Subscript(stream, "tap_stream_id").Some? && Subscript(stream, "tap_stream_id").value !in ids
  {
    match Subscript(stream, "tap_stream_id")
    case None => Raise
    case Some(id) =>
      if id in ids then
        match Subscript(stream, "schema")
        case None => Raise
        case Some(schema) => Take((id, schema))
      else Skip
  }

  function TaskStep(ids: seq<Value>): Value -> Step<(Value, Value)> {
    s => TaskOf(ids, s)
  }

  /** `create_sync_tasks(config, state, catalog)`, up to the coroutines: the
      `(tap_stream_id, schema)` pairs handed to `sync.sync`, in order. */
  function SyncTasks(catalog: Value): (r: Option<seq<(Value, Value)>>)
    ensures r.Some? ==> SelectedStreams(catalog).Some?
  {
    var streams :- Streams(catalog);
    var ids :- Collect(streams, SelectStep, 0);
    Collect(streams, TaskStep(ids), 0)
  }

  /** The tasks are the streams whose id was selected, in catalog order, each
      with its own schema; every selected stream gets one. */
  lemma TasksFollowSelection(catalog: Value)
    requires SyncTasks(catalog).Some?
    ensures var streams := Streams(catalog).value;
      var ids := SelectedStreams(catalog).value;
      var tasks := SyncTasks(catalog).value;
      var ps := Positions(streams, Taken(TaskStep(ids)), 0);
      && |tasks| == |ps|
      && (forall k :: 0 <= k < |ps| ==>
            && tasks[k].0 in ids
            && Subscript(streams[ps[k]], "tap_stream_id") == Some(tasks[k].0)
            && Subscript(streams[ps[k]], "schema") == Some(tasks[k].1))
      && (forall i :: 0 <= i < |streams| && IsSelected(streams[i]) ==> i in ps)
  {
    var streams := Streams(catalog).value;
    var ids := SelectedStreams(catalog).value;
    var tasks := SyncTasks(catalog).value;
    CollectPositions(streams, TaskStep(ids), 0);
    var ps := Positions(streams, Taken(TaskStep(ids)), 0);
    forall k | 0 <= k < |ps|
      ensures tasks[k].0 in ids
      ensures Subscript(streams[ps[k]], "tap_stream_id") == Some(tasks[k].0)
      ensures Subscript(streams[ps[k]], "schema") == Some(tasks[k].1)
    {
      assert TaskOf(ids, streams[ps[k]]) == Take(tasks[k]);
    }
    forall i | 0 <= i < |streams| && IsSelected(streams[i])
      ensures i in ps
    {
      SelectionMembership(catalog, Subscript(streams[i], "tap_stream_id").value);
      assert !TaskOf(ids, streams[i]).Raise?;
      assert TaskStep(ids)(streams[i]).Take?;
    }
  }
}

=== FILE: json.dfy ===
/** Decoded JSON documents as the tap sees them after `response.json()`. */
module Json {
  import opened Wrappers

  /** A decoded JSON value. Objects keep their members in insertion order,
      as Python dicts do; numbers are modelled as integers. */
  datatype Value =
    | Null
    | Bool(b: bool)
    | Num(n: int)
    | Str(s: string)
    | Arr(items: seq<Value>)
    | Obj(fields: Fields)

  /** The members of an object, in insertion order. */
  type Fields = seq<(string, Value)>

  /** Python truthiness: `None`, `False`, `0` and empty containers are false. */
  predicate Truthy(v: Value) {
    match v
    case Null => false
    case Bool(b) => b
    case Num(n) => n != 0
    case Str(s) => |s| > 0
    case Arr(items) => |items| > 0
    case Obj(fields) => |fields| > 0
  }

  /** The member names of an object, in order. */
  function Keys(f: Fields): (ks: seq<string>)
    ensures |ks| == |f|
    ensures forall i :: 0 <= i < |f| ==> ks[i] == f[i].0
  {
    if |f| == 0 then [] else [f[0].0] + Keys(f[1..])
  }

  /** No member name occurs twice (every decoded JSON object, every dict). */
  predicate Distinct(ks: seq<string>) {
    forall i, j :: 0 <= i < j < |ks| ==> ks[i] != ks[j]
  }

  /** `d[k]` / `d.get(k)` on a dict: the value stored under `k`, if any. */
  function Get(f: Fields, k: string): (r: Option<Value>)
    ensures r.Some? <==> k in Keys(f)
  {
    if |f| == 0 then None
    else if f[0].0 == k then Some(f[0].1)
    else Get(f[1..], k)
  }

  /** Looking up in an object whose first member is `p`. */
  lemma GetCons(p: (string, Value), rest: Fields, k: string)
    ensures Get([p] + rest, k) == if p.0 == k then Some(p.1) else Get(rest, k)
  {
    assert ([p] + rest)[1..] == rest;
  }

  /** `d[k] = v` on a dict: an existing member keeps its position and takes
      the new value; a new member is appended at the end. */
  function Set(f: Fields, k: string, v: Value): (r: Fields)
    ensures Get(r, k) == Some(v)
    ensures forall k' :: k' != k ==> Get(r, k') == Get(f, k')
    ensures Keys(r) == if k in Keys(f) then Keys(f) else Keys(f) + [k]
  {
    if |f| == 0 then [(k, v)]
    else if f[0].0 == k then
      ReplaceHead(f, k, v);
      [(k, v)] + f[1..]
    else
      var rest := Set(f[1..], k, v);
      KeepHead(f, rest, k, v);
      [f[0]] + rest
  }

  /** `Set` on an object whose first member is `k`. */
  lemma ReplaceHead(f: Fields, k: string, v: Value)
    requires |f| > 0 && f[0].0 == k
    ensures var r := [(k, v)] + f[1..];
      && Get(r, k) == Some(v)
      && (forall k' :: k' != k ==> Get(r, k') == Get(f, k'))
      && Keys(r) == Keys(f)
  {
    var r := [(k, v)] + f[1..];
    assert Keys(r) == Keys(f);
    GetCons((k, v), f[1..], k);
    forall k' | k' != k
      ensures Get(r, k') == Get(f, k')
    {
      GetCons((k, v), f[1..], k');
      GetCons(f[0], f[1..], k');
      assert f == [f[0]] + f[1..];
    }
  }

  /** `Set` on an object whose first member is not `k`, given `Set` on the
      rest. */
  lemma KeepHead(f: Fields, rest: Fields, k: string, v: Value)
    requires |f| > 0 && f[0].0 != k
    requires Get(rest, k) == Some(v)
    requires forall k' :: k' != k ==> Get(rest, k') == Get(f[1..], k')
    requires Keys(rest) == if k in Keys(f[1..]) then Keys(f[1..]) else Keys(f[1..]) + [k]
    ensures var r := [f[0]] + rest;
      && Get(r, k) == Some(v)
      && (forall k' :: k' != k ==> Get(r, k') == Get(f, k'))
      && Keys(r) == if k in Keys(f) then Keys(f) else Keys(f) + [k]
  {
    var r := [f[0]] + rest;
    assert Keys(f) == [f[0].0] + Keys(f[1..]);
    assert Keys(r) == [f[0].0] + Keys(rest);
    GetCons(f[0], rest, k);
    forall k' | k' != k
      ensures Get(r, k') == Get(f, k')
    {
      GetCons(f[0], rest, k');
      GetCons(f[0], f[1..], k');
      assert f == [f[0]] + f[1..];
    }
  }

  /** `v[k]` where `v` may be any JSON value: only an object with member `k`
      can be subscripted by a string; anything else raises in Python. */
  function Subscript(v: Value, k: string): (r: Option<Value>)
    ensures r.Some? <==> v.Obj? && k in Keys(v.fields)
  {
    if v.Obj? then Get(v.fields, k) else None
  }

  /** The items a Python `for` loop visits: list items, dict keys, or the
      one-character strings of a string; `None`, booleans and numbers are not
      iterable. */
  function Iterate(v: Value): (r: Option<seq<Value>>)
    ensures r.Some? <==> (v.Arr? || v.Obj? || v.Str?)
    ensures v.Arr? ==> r == Some(v.items)
    ensures v.Obj? ==> (r.Some? && |r.value| == |v.fields|
      && forall i :: 0 <= i < |v.fields| ==> r.value[i] == Str(v.fields[i].0))
    ensures r.Some? ==> (|r.value| == 0 <==> !Truthy(v))
  {
    match v
    case Arr(items) => Some(items)
    case Obj(fields) => Some(seq(|fields|, i requires 0 <= i < |fields| => Str(fields[i].0)))
    case Str(s) => Some(seq(|s|, i requires 0 <= i < |s| => Str([s[i]])))
    case _ => None
  }

  /** Setting a member never loses a member name nor reorders them. */
  lemma {:induction false} SetPreservesDistinct(f: Fields, k: string, v: Value)
    requires Distinct(Keys(f))
    ensures Distinct(Keys(Set(f, k, v)))
  {
  }
}

=== FILE: period.dfy ===
/** The calendar months `pendulum.period(start, end).range("months")` walks
    for the bills pass. */
module Period {
  import opened Timestamps

  /** The (year, month) a bill is requested for. */
  datatype YearMonth = YearMonth(year: int, month: int)

  function YearMonthOf(dt: DateTime): YearMonth {
    YearMonth(dt.year, dt.month)
  }

  /** Months counted from January of year 0. */
  function MonthIndex(dt: DateTime): int {
    dt.year * 12 + dt.month - 1
  }

  /** The month with the given index. */
  function MonthAt(i: int): (ym: YearMonth)
    ensures 1 <= ym.month <= 12
    ensures ym.year * 12 + ym.month - 1 == i
  {
    YearMonth(i / 12, i % 12 + 1)
  }

  /** `dt.add(months=k)` (`dt.subtract(months=-k)` for negative `k`): the
      same day and time of day, `k` months later. */
  function AddMonths(dt: DateTime, k: int): (r: DateTime)
    ensures 1 <= r.month <= 12 && MonthIndex(r) == MonthIndex(dt) + k
    ensures (r.day, r.hour, r.minute, r.second) == (dt.day, dt.hour, dt.minute, dt.second)
  {
    var ym := MonthAt(MonthIndex(dt) + k);
    DateTime(ym.year, ym.month, dt.day, dt.hour, dt.minute, dt.second)
  }

  /** Strictly earlier within a month: compares day, hour, minute, second. */
  predicate EarlierInMonth(a: DateTime, b: DateTime) {
    Before(DateTime(0, 1, a.day, a.hour, a.minute, a.second), DateTime(0, 1, b.day, b.hour, b.minute, b.second))
  }

  /** For months in range, `Before` compares the month first and the time
      within the month second. */
  lemma BeforeByMonth(a: DateTime, b: DateTime)
    requires 1 <= a.month <= 12 && 1 <= b.month <= 12
    ensures Before(a, b) <==> MonthIndex(a) < MonthIndex(b) || (MonthIndex(a) == MonthIndex(b) && EarlierInMonth(a, b))
  {
  }

  /** Tail comparisons ignore the month, so shifting by whole months keeps them. */
  lemma EarlierInMonthShift(a: DateTime, b: DateTime, k: int)
    ensures EarlierInMonth(a, AddMonths(b, k)) == EarlierInMonth(a, b)
    ensures EarlierInMonth(AddMonths(b, k), a) == EarlierInMonth(b, a)
  {
  }

  /** The forward walk: `start.add(months=k)` while not after `end`. */
  function ForwardMonths(start: DateTime, end: DateTime): (r: seq<YearMonth>)
    requires 1 <= start.month <= 12 && 1 <= end.month <= 12 && !Before(end, start)
    ensures |r| >= 1
    ensures forall k :: 0 <= k < |r| ==> r[k] == YearMonthOf(AddMonths(start, k)) && !Before(end, AddMonths(start, k))
    ensures Before(end, AddMonths(start, |r|))
  {
    BeforeByMonth(end, start);
    var last := if EarlierInMonth(end, start) then MonthIndex(end) - 1 else MonthIndex(end);
    var r := seq(last - MonthIndex(start) + 1, k requires 0 <= k => MonthAt(MonthIndex(start) + k));
    forall k | 0 <= k <= |r|
      ensures k < |r| ==> r[k] == YearMonthOf(AddMonths(start, k))
      ensures k < |r| <==> !Before(end, AddMonths(start, k))
    {
      EarlierInMonthShift(end, start, k);
      BeforeByMonth(end, AddMonths(start, k));
    }
    r
  }

  /** The inverted walk: `start.subtract(months=k)` while not before `end`. */
  function BackwardMonths(start: DateTime, end: DateTime): (r: seq<YearMonth>)
    requires 1 <= start.month <= 12 && 1 <= end.month <= 12 && Before(end, start)
    ensures |r| >= 1
    ensures forall k :: 0 <= k < |r| ==> r[k] == YearMonthOf(AddMonths(start, -k)) && !Before(AddMonths(start, -k), end)
    ensures Before(AddMonths(start, -|r|), end)
  {
    BeforeByMonth(end, start);
    BeforeByMonth(start, end);
    var r := seq(MonthIndex(start) - LowestIndex(start, end) + 1, k requires 0 <= k => MonthAt(MonthIndex(start) - k));
    forall k | 0 <= k <= |r|
      ensures k < |r| ==> r[k] == YearMonthOf(AddMonths(start, -k))
      ensures k < |r| <==> !Before(AddMonths(start, -k), end)
    {
      BackwardStep(start, end, k);
    }
    r
  }

  /** The index of the earliest month the inverted walk reaches. */
  function LowestIndex(start: DateTime, end: DateTime): int {
    if EarlierInMonth(start, end) then MonthIndex(end) + 1 else MonthIndex(end)
  }

  /** The inverted walk has not yet passed `end` at step `k` exactly when
      `k` months back is no earlier than the lowest month it reaches. */
  lemma BackwardStep(start: DateTime, end: DateTime, k: int)
    requires 1 <= start.month <= 12 && 1 <= end.month <= 12 && 0 <= k
    ensures MonthAt(MonthIndex(start) - k) == YearMonthOf(AddMonths(start, -k))
    ensures MonthIndex(start) - k >= LowestIndex(start, end) <==> !Before(AddMonths(start, -k), end)
  {
    EarlierInMonthShift(end, start, -k);
    BeforeByMonth(AddMonths(start, -k), end);
  }

  /** The k-th date `period(start, end).range("months")` considers:
      `start.add(months=k)`, or `start.subtract(months=k)` when the period is
      inverted (`start` after `end`). */
  function Step(start: DateTime, end: DateTime, k: nat): DateTime {
    if Before(end, start) then AddMonths(start, -(k as int)) else AddMonths(start, k)
  }

  /** The loop condition of the walk: not after `end` (`<=`), or not before
      `end` (`>=`) when the period is inverted. */
  predicate Continues(start: DateTime, end: DateTime, dt: DateTime) {
    if Before(end, start) then !Before(dt, end) else !Before(end, dt)
  }

  /** The months `period(start, end).range("months")` visits: it yields
      `Step(start, end, k)` for k = 0, 1, ... as long as the walk continues.
      Only the year and month of each step are kept. */
  function MonthRange(start: DateTime, end: DateTime): (r: seq<YearMonth>)
    requires 1 <= start.month <= 12 && 1 <= end.month <= 12
    ensures |r| >= 1 && r[0] == YearMonthOf(start)
    ensures forall k: nat :: k < |r| ==> r[k] == YearMonthOf(Step(start, end, k)) && Continues(start, end, Step(start, end, k))
    ensures !Continues(start, end, Step(start, end, |r|))
  {
    var r := if !Before(end, start) then ForwardMonths(start, end) else BackwardMonths(start, end);
    forall k: nat | k < |r|
      ensures r[k] == YearMonthOf(Step(start, end, k)) && Continues(start, end, Step(start, end, k))
    {
    }
    r
  }
}

=== FILE: runner.dfy ===
/** The entry point: `main` picking discovery or sync, the catalog and the
    initial state, `create_sync_tasks` turning the selected streams into
    passes through `FastlySync.sync`, and the passes themselves. */
module Runner {
  import opened Wrappers
  import opened Json
  import opened Timestamps
  import opened Bookmarks
  import opened Tap
  import opened Catalog
  import BillsSync
  import StatsSync

  /** The two `sync_<name>` methods of `FastlySync`. */
  datatype StreamKind = Bills | Stats

  function Name(k: StreamKind): string {
    match k
    case Bills => BillsSync.Stream
    case Stats => StatsSync.Stream
  }

  /** `getattr(self, f"sync_{stream}")`: only the two stream names find a
      method; any other id (a string or not) raises. */
  function Dispatch(id: Value): (r: Option<StreamKind>)
    ensures r.Some? ==> id == Str(Name(r.value))
    ensures id == Str(Name(Bills)) || id == Str(Name(Stats)) ==> r.Some?
  {
    if id == Str(BillsSync.Stream) then Some(Bills)
    else if id == Str(StatsSync.Stream) then Some(Stats)
    else None
  }

  /** A pass ready to run: the method found and the schema it is given. */
  datatype Pass = Pass(kind: StreamKind, schema: Value)

  /** The passes `asyncio.gather` receives, or the exception raised while
      its arguments were being unpacked. */
  datatype Plan = Planned(passes: seq<Pass>) | Failed(reason: Abort)

  /** The generator of `create_sync_tasks` from position `from` on, reading
      each stream with `step` (`TaskStep(ids)` in the program). Unpacking it
      into `gather` calls `sync.sync` on every selected stream before any
      pass starts, so the first stream whose lookup raises, or whose id has
      no method, ends everything. */
  function PlanFrom(streams: seq<Value>, step: Value -> Step<(Value, Value)>, from: nat): (r: Plan)
    requires from <= |streams|
    ensures r.Failed? ==>
      || r.reason == MalformedCatalog
      || (&& r.reason.UnknownStream?
          && Dispatch(r.reason.id).None?
          && exists i :: from <= i < |streams| && step(streams[i]).Take? && step(streams[i]).value.0 == r.reason.id)
    decreases |streams| - from
  {
    if from == |streams| then Planned([])
    else PlanStep(step(streams[from]), PlanFrom(streams, step, from + 1))
  }

  /** One round of the generator, given what the rounds after it yield: a
      stream whose lookup raises, or whose id names no method, ends the
      plan before the later rounds run. */
  function PlanStep(task: Step<(Value, Value)>, later: Plan): (r: Plan)
    ensures r.Planned? <==> !task.Raise? && (task.Take? ==> Dispatch(task.value.0).Some?) && later.Planned?
    ensures r.Planned? ==> |later.passes| <= |r.passes| && r.passes[|r.passes| - |later.passes|..] == later.passes
    ensures r.Planned? && task.Take? ==> |r.passes| == |later.passes| + 1 && r.passes[0] == Pass(Dispatch(task.value.0).value, task.value.1)
    ensures r.Planned? && task.Skip? ==> |r.passes| == |later.passes|
    ensures r.Failed? ==>
      || (task.Raise? && r.reason == MalformedCatalog)
      || (task.Take? && Dispatch(task.value.0).None? && r.reason == UnknownStream(task.value.0))
      || r == later
  {
    match task
    case Raise => Failed(MalformedCatalog)
    case Skip => later
    case Take(t) =>
      match Dispatch(t.0)
      case None => Failed(UnknownStream(t.0))
      case Some(k) =>
        match later
        case Failed(e) => Failed(e)
        case Planned(rest) => Planned([Pass(k, t.1)] + rest)
  }

  /** `create_sync_tasks(config, state, catalog)` up to the start of the
      passes: `get_selected_streams`, then the generator. */
  function PlanOf(catalog: Value): Plan {
    match Streams(catalog)
    case None => Failed(MalformedCatalog)
    case Some(streams) =>
      match Collect(streams, SelectStep, 0)
      case None => Failed(MalformedCatalog)
      case Some(ids) => PlanFrom(streams, TaskStep(ids), 0)
  }

  /** A plan that fails names either a malformed catalog or the id of a
      selected stream that has no `sync_<id>` method. */
  lemma PlanOfFailure(catalog: Value)
    requires PlanOf(catalog).Failed?
    ensures var reason := PlanOf(catalog).reason;
      || reason == MalformedCatalog
      || (&& reason.UnknownStream?
          && Dispatch(reason.id).None?
          && SelectedStreams(catalog).Some?
          && reason.id in SelectedStreams(catalog).value)
  {
    var reason := PlanOf(catalog).reason;
    if reason != MalformedCatalog {
      var streams := Streams(catalog).value;
      var ids := Collect(streams, SelectStep, 0).value;
      var i :| 0 <= i < |streams| && TaskStep(ids)(streams[i]).Take? && TaskStep(ids)(streams[i]).value.0 == reason.id;
      assert TaskStep(ids)(streams[i]) == TaskOf(ids, streams[i]);
    }
  }

  /** The generator succeeds exactly when the tasks can be collected and
      every task's id names a method. */
  lemma {:induction false} PlanFromSucceeds(streams: seq<Value>, step: Value -> Step<(Value, Value)>, from: nat)
    requires from <= |streams|
    ensures var tasks := Collect(streams, step, from);
      PlanFrom(streams, step, from).Planned? <==>
        tasks.Some? && forall i :: 0 <= i < |tasks.value| ==> Dispatch(tasks.value[i].0).Some?
    decreases |streams| - from
  {
    if from < |streams| {
      PlanFromSucceeds(streams, step, from + 1);
      var tasks := Collect(streams, step, from);
      var rest := Collect(streams, step, from + 1);
      match step(streams[from])
      case Raise =>
      case Skip =>
        assert tasks == rest;
      case Take(t) =>
        if rest.Some? {
          assert tasks.value == [t] + rest.value;
          AllDispatchCons(t, rest.value);
        }
    }
  }

  /** Every task's id names a method. */
  predicate AllDispatch(tasks: seq<(Value, Value)>) {
    forall i :: 0 <= i < |tasks| ==> Dispatch(tasks[i].0).Some?
  }

  /** A task in front of others: all dispatch exactly when it and the others do. */
  lemma AllDispatchCons(t: (Value, Value), rest: seq<(Value, Value)>)
    ensures AllDispatch([t] + rest) <==> Dispatch(t.0).Some? && AllDispatch(rest)
  {
    var all := [t] + rest;
    assert all[0] == t;
    assert forall j :: 0 <= j < |rest| ==> all[j + 1] == rest[j];
  }

  /** The passes match the tasks one for one: each pass runs the method its
      task's id names, on its task's schema. */
  predicate Matched(tasks: seq<(Value, Value)>, passes: seq<Pass>) {
    && |passes| == |tasks|
    && forall i :: 0 <= i < |tasks| ==> Dispatch(tasks[i].0) == Some(passes[i].kind) && passes[i].schema == tasks[i].1
  }

  /** A generator that succeeds yields the tasks one for one, each with the
      method its id names. */
  lemma {:induction false} PlanFromPasses(streams: seq<Value>, step: Value -> Step<(Value, Value)>, from: nat)
    requires from <= |streams|
    requires PlanFrom(streams, step, from).Planned? && Collect(streams, step, from).Some?
    ensures Matched(Collect(streams, step, from).value, PlanFrom(streams, step, from).passes)
    decreases |streams| - from
  {
    if from < |streams| {
      PlanFromPasses(streams, step, from + 1);
      if step(streams[from]).Take? {
        PassesCons(step(streams[from]).value, Collect(streams, step, from + 1).value, PlanFrom(streams, step, from + 1).passes);
      }
    }
  }

  /** Putting one dispatchable task in front of matched tasks and passes
      keeps them matched. */
  lemma PassesCons(t: (Value, Value), tasks: seq<(Value, Value)>, passes: seq<Pass>)
    requires Dispatch(t.0).Some? && Matched(tasks, passes)
    ensures Matched([t] + tasks, [Pass(Dispatch(t.0).value, t.1)] + passes)
  {
    var all, ps := [t] + tasks, [Pass(Dispatch(t.0).value, t.1)] + passes;
    forall i | 0 < i < |all|
      ensures all[i] == tasks[i - 1] && ps[i] == passes[i - 1]
    {
    }
  }

  /** What `create_sync_tasks` hands to `gather`, stated through the tasks
      of the catalog: nothing runs unless every task's id names a method,
      and then the passes are the tasks in catalog order. */
  lemma PlanFollowsTasks(catalog: Value)
    ensures var tasks := SyncTasks(catalog);
      PlanOf(catalog).Planned? <==>
        tasks.Some? && forall i :: 0 <= i < |tasks.value| ==> Dispatch(tasks.value[i].0).Some?
    ensures var tasks := SyncTasks(catalog);
      var plan := PlanOf(catalog);
      plan.Planned? && tasks.Some? ==> Matched(tasks.value, plan.passes)
  {
    var streams := Streams(catalog);
    if streams.Some? {
      var ids := Collect(streams.value, SelectStep, 0);
      if ids.Some? {
        PlanFromSucceeds(streams.value, TaskStep(ids.value), 0);
        assert SyncTasks(catalog) == Collect(streams.value, TaskStep(ids.value), 0);
        if PlanOf(catalog).Planned? {
          PlanFromPasses(streams.value, TaskStep(ids.value), 0);
        }
      }
    }
  }

  /** One pass: `sync_bills(schema)` or `sync_stats(schema)`. */
  function RunPass(p: Pass, st: State, startDate: string, env: Environment): Run
    requires Valid(env.now)
  {
    match p.kind
    case Bills => BillsSync.SyncBills(st, p.schema, env)
    case Stats => StatsSync.SyncStats(st, p.schema, startDate, env)
  }

  /** `RunPass` for every pass and state. */
  function PassRunner(startDate: string, env: Environment): (Pass, State) -> Run
    requires Valid(env.now)
  {
    (p, st) => RunPass(p, st, startDate, env)
  }

  /** The passes one after the other on the shared state, `run` doing each;
      an exception that escapes a pass ends the run. This is a sequential
      stand-in for `gather`, which interleaves the passes at each `await`. */
  function RunPasses(st: State, passes: seq<Pass>, run: (Pass, State) -> Run): (r: Run)
    ensures |passes| == 0 ==> r == Run([], [], st, Completed)
    decreases |passes|
  {
    if |passes| == 0 then Run([], [], st, Completed)
    else
      var first := run(passes[0], st);
      if first.status.Aborted? then first
      else
        var rest := RunPasses(first.state, passes[1..], run);
        Run(first.messages + rest.messages, first.calls + rest.calls, rest.state, rest.status)
  }

  /** `sync(config, state, catalog)`. */
  function SyncAll(st: State, catalog: Value, startDate: string, env: Environment): Run
    requires Valid(env.now)
  {
    match PlanOf(catalog)
    case Failed(reason) => Run([], [], st, Aborted(reason))
    case Planned(passes) => RunPasses(st, passes, PassRunner(startDate, env))
  }

  /** The state of the last STATE message among `msgs`, or `st` when there
      is none. */
  function LastState(msgs: seq<Message>, st: State): State {
    if |States(msgs)| > 0 then States(msgs)[|States(msgs)| - 1] else st
  }

  /** The `state` property is only ever assigned through its setter, which
      writes the new state before storing it: a pass ends on the state it
      last wrote, or the one it started from. */
  lemma PassStateIsLastWritten(p: Pass, st: State, startDate: string, env: Environment)
    requires Valid(env.now)
    ensures EndsOnLastWritten(RunPass(p, st, startDate, env), st)
  {
    match p.kind
    case Bills =>
      BillsSync.SyncBillsOutline(st, p.schema, env);
    case Stats =>
      var r := StatsSync.SyncStats(st, p.schema, startDate, env);
      var head := [SchemaMessage(StatsSync.Stream, p.schema, StatsSync.KeyProperties)];
      assert States(head) == [];
      StatsSync.SyncStatsOutline(st, p.schema, startDate, env);
      var start := StatsSync.StatsStart(st, startDate);
      if start.Since? && env.stats(start.seconds, EpochSeconds(env.now)).Body? {
        var result := env.stats(start.seconds, EpochSeconds(env.now)).body;
        var q := StatsSync.Process(st, result, env);
        StatsSync.ProcessOutline(st, result, env);
        RecordsAppend(head, q.messages);
      } else {
        assert r.messages == head;
      }
  }

  /** So does every pass `PassRunner` runs. */
  lemma PassRunnerEndsOnLastWritten(startDate: string, env: Environment)
    requires Valid(env.now)
    ensures forall p, st :: EndsOnLastWritten(PassRunner(startDate, env)(p, st), st)
  {
    forall p, st
      ensures EndsOnLastWritten(PassRunner(startDate, env)(p, st), st)
    {
      PassStateIsLastWritten(p, st, startDate, env);
    }
  }

  /** A run that ends on the last state it wrote, starting from `st`. */
  predicate EndsOnLastWritten(r: Run, st: State) {
    r.state == LastState(r.messages, st)
  }

  /** The same holds across passes: the run ends on the last state written
      by any pass. */
  lemma {:induction false} RunPassesStateIsLastWritten(st: State, passes: seq<Pass>, run: (Pass, State) -> Run)
    requires forall p, s :: EndsOnLastWritten(run(p, s), s)
    ensures EndsOnLastWritten(RunPasses(st, passes, run), st)
    decreases |passes|
  {
    if |passes| > 0 {
      var first := run(passes[0], st);
      if first.status.Completed? {
        var rest := RunPasses(first.state, passes[1..], run);
        RunPassesStateIsLastWritten(first.state, passes[1..], run);
        RecordsAppend(first.messages, rest.messages);
      }
    }
  }

  /** A run over several passes writes each pass's messages in turn: the
      first pass's messages and requests start the run's, and a first pass
      that raises is the whole run. */
  lemma RunPassesStartsWithFirst(st: State, passes: seq<Pass>, run: (Pass, State) -> Run)
    requires |passes| > 0
    ensures var first := run(passes[0], st);
      var r := RunPasses(st, passes, run);
      && first.messages <= r.messages
      && first.calls <= r.calls
      && (first.status.Aborted? ==> r == first)
  {
  }

  /** The sync as a whole: with a catalog whose selected ids do not all name
      a method, or whose lookups raise, nothing is written or requested.
      Otherwise the passes run in catalog order, and the state at the end is
      the last one written. */
  lemma SyncAllOutline(st: State, catalog: Value, startDate: string, env: Environment)
    requires Valid(env.now)
    ensures var tasks := SyncTasks(catalog);
      var r := SyncAll(st, catalog, startDate, env);
      (tasks.None? || exists i :: 0 <= i < |tasks.value| && Dispatch(tasks.value[i].0).None?) ==>
        r.messages == [] && r.calls == [] && r.state == st && r.status.Aborted?
    ensures var tasks := SyncTasks(catalog);
      (tasks.Some? && forall i :: 0 <= i < |tasks.value| ==> Dispatch(tasks.value[i].0).Some?) ==>
        && PlanOf(catalog).Planned?
        && SyncAll(st, catalog, startDate, env) == RunPasses(st, PlanOf(catalog).passes, PassRunner(startDate, env))
    ensures EndsOnLastWritten(SyncAll(st, catalog, startDate, env), st)
  {
    PlanFollowsTasks(catalog);
    if PlanOf(catalog).Planned? {
      PassRunnerEndsOnLastWritten(startDate, env);
      RunPassesStateIsLastWritten(st, PlanOf(catalog).passes, PassRunner(startDate, env));
    }
  }

  // ---------------------------------------------------------------------
  // `main`

  /** The parsed command line: `--discover`, `--catalog` when given, the
      config's `start_date` and `--state` (`{}` when not given). */
  datatype Args = Args(discover: bool, catalog: Option<Value>, startDate: string, state: Fields)

  /** What `main` does: print the discovered catalog, run a sync, or crash
      while discovering. */
  datatype Outcome = Printed(catalog: Value) | Synced(run: Run) | Crashed

  /** `args.catalog` when it is truthy, otherwise `discover()`. */
  function ChosenCatalog(args: Args, docs: seq<(string, Value)>): (r: Option<Value>)
    ensures r == args.catalog || r == Discover(docs)
    ensures r.None? ==> Discover(docs).None?
    ensures r != Discover(docs) ==> r.Some? && r == args.catalog && Truthy(r.value)
  {
    if args.catalog.Some? && Truthy(args.catalog.value) then args.catalog else Discover(docs)
  }

  /** `main()`, with the schema documents `discover` loads as `docs`. */
  function Launch(args: Args, docs: seq<(string, Value)>, env: Environment): (r: Outcome)
    requires Valid(env.now) && Distinct(Keys(args.state))
    ensures r.Printed? <==> args.discover && Discover(docs).Some?
    ensures r.Printed? ==> Some(r.catalog) == Discover(docs)
    ensures r.Synced? <==> !args.discover && ChosenCatalog(args, docs).Some?
  {
    if args.discover then
      match Discover(docs)
      case None => Crashed
      case Some(c) => Printed(c)
    else
      match ChosenCatalog(args, docs)
      case None => Crashed
      case Some(catalog) =>
        var st := InitialState(args.startDate, args.state);
        Synced(SyncAll(st, catalog, args.startDate, env))
  }

  /** A sync given a truthy catalog never looks at the schema documents:
      the run is the same whatever they hold. */
  lemma CallerCatalogWins(args: Args, docs: seq<(string, Value)>, other: seq<(string, Value)>, env: Environment)
    requires Valid(env.now) && Distinct(Keys(args.state))
    requires !args.discover && args.catalog.Some? && Truthy(args.catalog.value)
    ensures Launch(args, docs, env) == Launch(args, other, env)
    ensures Launch(args, docs, env) ==
      Synced(SyncAll(InitialState(args.startDate, args.state), args.catalog.value, args.startDate, env))
  {
  }

  /** Without a catalog from the caller, the sync runs on the discovered
      one, starting from the default state overridden by the caller's. */
  lemma DiscoveredCatalogOtherwise(args: Args, docs: seq<(string, Value)>, env: Environment)
    requires Valid(env.now) && Distinct(Keys(args.state))
    requires !args.discover && !(args.catalog.Some? && Truthy(args.catalog.value))
    ensures Discover(docs).Some? ==>
      Launch(args, docs, env) == Synced(SyncAll(InitialState(args.startDate, args.state), Discover(docs).value, args.startDate, env))
    ensures Discover(docs).None? ==> Launch(args, docs, env) == Crashed
  {
  }

  // ---------------------------------------------------------------------
  // `main` as written, with the catalog singer hands it

  /** `main()` as the program runs it. singer's `parse_args` loads a
      `--catalog` file into a `Catalog` object rather than a dict. The
      object is always truthy, so it is chosen over discovery, but it has
      no `__getitem__`: `catalog['streams']` in `get_selected_streams`
      raises `TypeError` before any pass is planned. So a sync on a caller
      catalog always crashes, whatever the file holds. */
  function LaunchAsWritten(args: Args, docs: seq<(string, Value)>, env: Environment): (r: Outcome)
    requires Valid(env.now) && Distinct(Keys(args.state))
    ensures r.Synced? <==> !args.discover && args.catalog.None? && Discover(docs).Some?
    ensures r.Synced? ==>
      r.run == SyncAll(InitialState(args.startDate, args.state), Discover(docs).value, args.startDate, env)
    ensures args.discover ==> r == Launch(args, docs, env)
  {
    if !args.discover && args.catalog.Some? then Crashed else Launch(args, docs, env)
  }

  /** The discrepancy on one input: a catalog file with no streams. As
      written the run crashes; with the dict-shaped catalog the code
      subscripts, it completes with nothing written or requested. */
  lemma CallerCatalogCrashesAsWritten(env: Environment)
    requires Valid(env.now)
    ensures var args := Args(false, Some(Obj([("streams", Arr([]))])), "2020-01-01T00:00:00Z", []);
      && LaunchAsWritten(args, [], env) == Crashed
      && Launch(args, [], env) == Synced(Run([], [], InitialState(args.startDate, args.state), Completed))
  {
    var args := Args(false, Some(Obj([("streams", Arr([]))])), "2020-01-01T00:00:00Z", []);
    var st := InitialState(args.startDate, args.state);
    var catalog := args.catalog.value;
    PlanFollowsTasks(catalog);
    assert SyncTasks(catalog) == Some([]);
  }
}

=== FILE: stats.dfy ===
/** `FastlySync.sync_stats`: one SCHEMA message, one stats request from the
    `stats.from` bookmark (or the configured start date) up to now, one
    service lookup per entry of the reply's `data`, every row of that entry
    written as a record carrying eight fields of the service, and finally
    the bookmark advanced to the reply's `meta.to`. */
module StatsSync {
  import opened Wrappers
  import opened Json
  import opened Text
  import opened Timestamps
  import opened Bookmarks
  import opened Tap

  const Stream := "stats"
  const BookmarkKey := "from"
  const KeyProperties := ["service_id", "start_time"]

  // ---------------------------------------------------------------------
  // The start of the requested window

  /** Where the window starts, as `int_timestamp`, or why the pass stops. */
  datatype Since = Since(seconds: int) | Stop(reason: Abort)

  /** `pendulum.parse(text).int_timestamp`. */
  function FromIso(text: string): (r: Since)
    ensures r.Since? <==> ParseIso(text).Some?
    ensures r.Stop? ==> r.reason == UnparsableStart
  {
    match ParseIso(text)
    case None => Stop(UnparsableStart)
    case Some(dt) => Since(EpochSeconds(dt))
  }

  /** The bookmark handling at the top of the pass: a bookmark holding
      `UTC` is the legacy `meta.to` form and is first rewritten through
      `strptime(..., '%Y-%m-%d %H:%M:%S UTC').isoformat()`; without a
      bookmark the configured `start_date` is used. A bookmark that is not a
      string cannot be parsed. */
  function StatsStart(st: State, startDate: string): (r: Since)
    ensures GetBookmark(st, Stream, BookmarkKey).Unreadable? <==> r == Stop(MalformedState)
    ensures GetBookmark(st, Stream, BookmarkKey).Absent? ==> r == FromIso(startDate)
  {
    match GetBookmark(st, Stream, BookmarkKey)
    case Unreadable => Stop(MalformedState)
    case Absent => FromIso(startDate)
    case Present(Str(text)) =>
      if Contains(text, "UTC") then
        match ParseUtc(text)
        case None => Stop(UnparsableStart)
        case Some(dt) => FromIso(IsoFormat(dt))
      else FromIso(text)
    case Present(_) => Stop(UnparsableStart)
  }

  // ---------------------------------------------------------------------
  // Enriching one row with its service

  /** `i[target] = service_result[source]`, through `json.dumps` when
      `encoded`. */
  datatype Copy = Copy(target: string, source: string, encoded: bool)

  /** The eight assignments of the row loop, in the order they run. */
  const Copies := [
    Copy("service_name", "name", false),
    Copy("service_versions", "versions", true),
    Copy("service_customer_id", "customer_id", false),
    Copy("service_publish_key", "publish_key", false),
    Copy("service_comment", "comment", false),
    Copy("service_deleted_at", "deleted_at", false),
    Copy("service_updated_at", "updated_at", false),
    Copy("service_created_at", "created_at", false)]

  function Targets(copies: seq<Copy>): (ts: seq<string>)
    ensures |ts| == |copies|
    ensures forall i :: 0 <= i < |copies| ==> ts[i] == copies[i].target
  {
    if |copies| == 0 then [] else [copies[0].target] + Targets(copies[1..])
  }

  /** Every source member the copies read is in the service object. */
  predicate Sourced(service: Fields, copies: seq<Copy>) {
    forall i :: 0 <= i < |copies| ==> copies[i].source in Keys(service)
  }

  /** The value one copy stores in the row. */
  function Copied(service: Fields, c: Copy, dumps: Value -> string): Value
    requires c.source in Keys(service)
  {
    var v := Get(service, c.source).value;
    if c.encoded then Str(dumps(v)) else v
  }

  /** The copies run in order on the row's members; a missing source member
      raises `KeyError`. */
  function Assign(row: Fields, service: Fields, copies: seq<Copy>, dumps: Value -> string): (r: Option<Fields>)
    ensures r.Some? <==> Sourced(service, copies)
    decreases |copies|
  {
    if |copies| == 0 then Some(row)
    else if copies[0].source !in Keys(service) then None
    else
      var r := Assign(Set(row, copies[0].target, Copied(service, copies[0], dumps)), service, copies[1..], dumps);
      assert Sourced(service, copies) <==> Sourced(service, copies[1..]) by {
        assert forall i :: 1 <= i < |copies| ==> copies[i] == copies[1..][i - 1];
      }
      r
  }

  /** After the copies, every member of the row that no copy targets is
      unchanged. */
  lemma {:induction false} AssignKeeps(row: Fields, service: Fields, copies: seq<Copy>, dumps: Value -> string)
    requires Sourced(service, copies)
    ensures var r := Assign(row, service, copies, dumps).value;
      forall k :: k !in Targets(copies) ==> Get(r, k) == Get(row, k)
    decreases |copies|
  {
    if |copies| > 0 {
      var c := copies[0];
      var row' := Set(row, c.target, Copied(service, c, dumps));
      SourcedTail(service, copies);
      AssignKeeps(row', service, copies[1..], dumps);
      assert Assign(row, service, copies, dumps) == Assign(row', service, copies[1..], dumps);
      assert Targets(copies) == [c.target] + Targets(copies[1..]);
    }
  }

  /** After the copies, each target holds its copied value, the targets
      being distinct. */
  lemma {:induction false} AssignGets(row: Fields, service: Fields, copies: seq<Copy>, dumps: Value -> string)
    requires Sourced(service, copies) && Distinct(Targets(copies))
    ensures var r := Assign(row, service, copies, dumps).value;
      forall i :: 0 <= i < |copies| ==> Get(r, copies[i].target) == Some(Copied(service, copies[i], dumps))
    decreases |copies|
  {
    if |copies| > 0 {
      var c := copies[0];
      var row' := Set(row, c.target, Copied(service, c, dumps));
      SourcedTail(service, copies);
      assert Targets(copies) == [c.target] + Targets(copies[1..]);
      assert c.target !in Targets(copies[1..]);
      assert Distinct(Targets(copies[1..])) by {
        assert forall i :: 0 <= i < |copies| - 1 ==> Targets(copies[1..])[i] == Targets(copies)[i + 1];
      }
      AssignGets(row', service, copies[1..], dumps);
      AssignKeeps(row', service, copies[1..], dumps);
      var r := Assign(row, service, copies, dumps).value;
      assert r == Assign(row', service, copies[1..], dumps).value;
      forall i | 0 <= i < |copies|
        ensures Get(r, copies[i].target) == Some(Copied(service, copies[i], dumps))
      {
        if i > 0 {
          assert copies[i] == copies[1..][i - 1];
        }
      }
    }
  }

  lemma SourcedTail(service: Fields, copies: seq<Copy>)
    requires |copies| > 0 && Sourced(service, copies)
    ensures Sourced(service, copies[1..])
  {
    assert forall i :: 1 <= i < |copies| ==> copies[i] == copies[1..][i - 1];
  }

  /** The body of the row loop: the eight assignments on a row that is a
      dict, with a service reply that is a dict. A `None` service (the
      lookup failed) or a row that is not a dict raises `TypeError`. */
  function Enrich(row: Value, service: Value, dumps: Value -> string): (r: Option<Value>)
    ensures r.Some? <==> row.Obj? && service.Obj? && Sourced(service.fields, Copies)
    ensures r.Some? ==> r.value.Obj?
  {
    if row.Obj? && service.Obj? then
      match Assign(row.fields, service.fields, Copies, dumps)
      case None => None
      case Some(f) => Some(Obj(f))
    else None
  }

  /** The eight service members a record carries. */
  predicate Carries(record: Value) {
    record.Obj? && forall i :: 0 <= i < |Copies| ==> Copies[i].target in Keys(record.fields)
  }

  lemma CopiesTargetsDistinct()
    ensures Distinct(Targets(Copies))
  {
    var ts := Targets(Copies);
    assert ts == ["service_name", "service_versions", "service_customer_id", "service_publish_key",
                  "service_comment", "service_deleted_at", "service_updated_at", "service_created_at"];
  }

  /** An enriched row holds each of the eight service members, taken from the
      service (the versions JSON-encoded), and keeps every other member of the
      row as it was. */
  lemma EnrichedRow(row: Value, service: Value, dumps: Value -> string)
    requires Enrich(row, service, dumps).Some?
    ensures var r := Enrich(row, service, dumps).value;
      && (forall i :: 0 <= i < |Copies| ==> Get(r.fields, Copies[i].target) == Some(Copied(service.fields, Copies[i], dumps)))
      && (forall k :: k !in Targets(Copies) ==> Get(r.fields, k) == Get(row.fields, k))
  {
    CopiesTargetsDistinct();
    AssignGets(row.fields, service.fields, Copies, dumps);
    AssignKeeps(row.fields, service.fields, Copies, dumps);
  }

  /** In particular, the service's name and the JSON text of its versions. */
  lemma EnrichedNameAndVersions(row: Value, service: Value, dumps: Value -> string)
    requires Enrich(row, service, dumps).Some?
    ensures var r := Enrich(row, service, dumps).value;
      && Get(r.fields, "service_name") == Get(service.fields, "name")
      && Get(r.fields, "service_versions") == Some(Str(dumps(Get(service.fields, "versions").value)))
  {
    EnrichedRow(row, service, dumps);
    assert Copies[0].target == "service_name" && Copies[1].target == "service_versions";
  }

  /** An enriched row carries all eight members. */
  lemma EnrichedCarries(row: Value, service: Value, dumps: Value -> string)
    requires Enrich(row, service, dumps).Some?
    ensures Carries(Enrich(row, service, dumps).value)
  {
    EnrichedRow(row, service, dumps);
    var r := Enrich(row, service, dumps).value;
    forall i | 0 <= i < |Copies|
      ensures Copies[i].target in Keys(r.fields)
    {
      assert Get(r.fields, Copies[i].target).Some?;
    }
  }

  // ---------------------------------------------------------------------
  // The loops

  /** The row loop's body for one service, as a function of the row. */
  function Enricher(service: Value, dumps: Value -> string): Value -> Option<Value> {
    row => Enrich(row, service, dumps)
  }

  /** `for i in result['data'][n]`: each row is enriched and written; the
      first row that cannot be enriched ends the pass. */
  function Rows(st: State, rows: seq<Value>, enrich: Value -> Option<Value>): (r: Run)
    ensures r.calls == [] && r.state == st
    ensures |r.messages| <= |rows|
    ensures forall i :: 0 <= i < |r.messages| ==>
      enrich(rows[i]).Some? && r.messages[i] == RecordMessage(Stream, enrich(rows[i]).value)
    ensures r.status.Completed? ==> |r.messages| == |rows|
    ensures r.status.Aborted? ==>
      |r.messages| < |rows| && enrich(rows[|r.messages|]).None? && r.status.reason == EnrichmentFailed
    decreases |rows|
  {
    if |rows| == 0 then Run([], [], st, Completed)
    else
      match enrich(rows[0])
      case None => Run([], [], st, Aborted(EnrichmentFailed))
      case Some(record) =>
        var rest := Rows(st, rows[1..], enrich);
        var msgs := [RecordMessage(Stream, record)] + rest.messages;
        assert forall i :: 1 <= i < |msgs| ==> msgs[i] == rest.messages[i - 1] && rows[i] == rows[1..][i - 1];
        Run(msgs, [], st, rest.status)
  }

  /** `result['data'][n]` for an item `n` of `data`: a dict is indexed by its
      member names, a list by an integer (`bool` included, negative counting
      from the end); anything else raises. */
  function Entry(data: Value, n: Value): Option<Value> {
    match data
    case Obj(fields) => if n.Str? then Get(fields, n.s) else None
    case Arr(items) =>
      var j := match n case Num(x) => Some(x) case Bool(b) => Some(if b then 1 else 0) case _ => None;
      if j.Some? && -|items| <= j.value < |items| then Some(items[if j.value < 0 then j.value + |items| else j.value])
      else None
    case _ => None
  }

  /** The service lookup's result: its body, or `None` when it raised. */
  function ServiceOf(reply: Reply): Value {
    match reply
    case Body(v) => v
    case Raised => Null
  }

  /** The body of one pass of `for n in result['data']`, once the service
      has been looked up: the row loop over `result['data'][n]`. */
  function Item(st: State, data: Value, n: Value, env: Environment): (r: Run)
    ensures r.calls == [] && r.state == st
  {
    match Entry(data, n)
    case None => Run([], [], st, Aborted(EnrichmentFailed))
    case Some(entry) =>
      match Iterate(entry)
      case None => Run([], [], st, Aborted(NotIterable))
      case Some(rows) => Rows(st, rows, Enricher(ServiceOf(env.service(n)), env.dumps))
  }

  /** `Item` for each `n`. */
  function ItemPass(st: State, data: Value, env: Environment): Value -> Run {
    n => Item(st, data, n, env)
  }

  /** Messages that are all records, each carrying the service members. */
  predicate EnrichedRecords(msgs: seq<Message>) {
    && (forall i :: 0 <= i < |Records(msgs)| ==> Carries(Records(msgs)[i]))
    && |States(msgs)| == 0
    && NoSchema(msgs)
  }

  /** `for n in result['data']`, over the remaining items: each pass looks
      the service `n` up, then runs `item(n)`; the first pass that raises
      ends the loop. */
  function Services(st: State, items: seq<Value>, item: Value -> Run): (r: Run)
    ensures r.state == st
    ensures |r.calls| <= |items|
    ensures forall i :: 0 <= i < |r.calls| ==> r.calls[i] == ServiceCall(items[i])
    ensures r.status.Completed? ==> |r.calls| == |items|
    decreases |items|
  {
    if |items| == 0 then Run([], [], st, Completed)
    else
      var first := item(items[0]);
      if first.status.Aborted? then Run(first.messages, [ServiceCall(items[0])], st, first.status)
      else
        var rest := Services(st, items[1..], item);
        var calls := [ServiceCall(items[0])] + rest.calls;
        assert forall i :: 1 <= i < |calls| ==> calls[i] == rest.calls[i - 1];
        assert forall i :: 1 <= i < |items| ==> items[i] == items[1..][i - 1];
        Run(first.messages + rest.messages, calls, st, rest.status)
  }

  /** The service loop writes only records, each carrying the eight service
      members, when every pass does. */
  lemma {:induction false} ServicesWriteRecords(st: State, items: seq<Value>, item: Value -> Run)
    requires forall n :: EnrichedRecords(item(n).messages)
    ensures EnrichedRecords(Services(st, items, item).messages)
    decreases |items|
  {
    if |items| > 0 {
      var first := item(items[0]);
      if first.status.Completed? {
        var rest := Services(st, items[1..], item);
        ServicesWriteRecords(st, items[1..], item);
        RecordsAppend(first.messages, rest.messages);
      }
    }
  }

  /** Every pass of the service loop of a reply writes such records. */
  lemma ItemPassWritesRecords(st: State, data: Value, env: Environment)
    ensures forall n :: EnrichedRecords(ItemPass(st, data, env)(n).messages)
  {
    forall n
      ensures EnrichedRecords(Item(st, data, n, env).messages)
    {
      var entry := Entry(data, n);
      if entry.Some? && Iterate(entry.value).Some? {
        var rows := Iterate(entry.value).value;
        var enrich := Enricher(ServiceOf(env.service(n)), env.dumps);
        EnricherCarries(ServiceOf(env.service(n)), env.dumps);
        RowsAreRecords(st, rows, enrich);
      }
    }
  }

  /** Whatever the row loop's body for a service produces carries the
      eight service members. */
  lemma EnricherCarries(service: Value, dumps: Value -> string)
    ensures forall row :: Enricher(service, dumps)(row).Some? ==> Carries(Enricher(service, dumps)(row).value)
  {
    forall row | Enricher(service, dumps)(row).Some?
      ensures Carries(Enricher(service, dumps)(row).value)
    {
      EnrichedCarries(row, service, dumps);
    }
  }

  /** The messages of the row loop are records, each of them a row the body
      produced. */
  lemma RowsAreRecords(st: State, rows: seq<Value>, enrich: Value -> Option<Value>)
    requires forall row :: enrich(row).Some? ==> Carries(enrich(row).value)
    ensures var r := Rows(st, rows, enrich);
      && (forall i :: 0 <= i < |Records(r.messages)| ==> Carries(Records(r.messages)[i]))
      && |States(r.messages)| == 0
      && NoSchema(r.messages)
  {
    var r := Rows(st, rows, enrich);
    AllRecords(r.messages);
    var records := Records(r.messages);
    forall i | 0 <= i < |records|
      ensures Carries(records[i])
    {
      assert records[i] == r.messages[i].record;
      assert enrich(rows[i]).Some?;
    }
  }

  /** A message list made only of records. */
  lemma {:induction false} AllRecords(msgs: seq<Message>)
    requires forall i :: 0 <= i < |msgs| ==> msgs[i].RecordMessage?
    ensures Records(msgs) == seq(|msgs|, i requires 0 <= i < |msgs| => msgs[i].record)
    ensures |States(msgs)| == 0
    decreases |msgs|
  {
    if |msgs| > 0 {
      AllRecords(msgs[1..]);
    }
  }

  // ---------------------------------------------------------------------
  // What the loops write, by reference

  /** `rows`, each made into a record by `enrich`, up to the first row it
      cannot make into one. */
  function EnrichAll(rows: seq<Value>, enrich: Value -> Option<Value>): (r: seq<Value>)
    ensures |r| <= |rows|
    ensures forall j :: 0 <= j < |r| ==> enrich(rows[j]) == Some(r[j])
    ensures |r| < |rows| ==> enrich(rows[|r|]).None?
    decreases |rows|
  {
    if |rows| == 0 then []
    else
      match enrich(rows[0])
      case None => []
      case Some(record) =>
        var rest := EnrichAll(rows[1..], enrich);
        assert forall j :: 1 <= j < |rows| ==> rows[j] == rows[1..][j - 1];
        [record] + rest
  }

  /** The rows of `result['data'][n]`; none when that lookup or the
      iteration over it raises. */
  function RowsOf(data: Value, n: Value): seq<Value> {
    match Entry(data, n)
    case None => []
    case Some(entry) =>
      match Iterate(entry)
      case None => []
      case Some(rows) => rows
  }

  /** The records written for item `n`: its rows, each enriched with the
      service `n` names, up to the first row that cannot be enriched. */
  function ServiceRecords(data: Value, n: Value, env: Environment): seq<Value> {
    EnrichAll(RowsOf(data, n), Enricher(ServiceOf(env.service(n)), env.dumps))
  }

  /** `recs(n)` for each of `items`, one after the other. */
  function Concat(items: seq<Value>, recs: Value -> seq<Value>): seq<Value>
    decreases |items|
  {
    if |items| == 0 then [] else recs(items[0]) + Concat(items[1..], recs)
  }

  /** `ServiceRecords` for each item. */
  function RecordsOfItem(data: Value, env: Environment): Value -> seq<Value> {
    n => ServiceRecords(data, n, env)
  }

  /** The records of `for n in items` over `data`, item after item, each
      with its own service's fields. */
  function EnrichedRows(data: Value, items: seq<Value>, env: Environment): seq<Value> {
    Concat(items, RecordsOfItem(data, env))
  }

  /** The `j`-th record of item `n` is its `j`-th row with the eight fields
      of `n`'s service: each target holds its service field, and every other
      member is the row's own. */
  lemma ServiceRecordFields(data: Value, n: Value, env: Environment, j: nat)
    requires j < |ServiceRecords(data, n, env)|
    ensures var row := RowsOf(data, n)[j];
      var service := ServiceOf(env.service(n));
      var r := ServiceRecords(data, n, env)[j];
      && row.Obj? && service.Obj? && r.Obj?
      && (forall i :: 0 <= i < |Copies| ==> Get(r.fields, Copies[i].target) == Some(Copied(service.fields, Copies[i], env.dumps)))
      && (forall k :: k !in Targets(Copies) ==> Get(r.fields, k) == Get(row.fields, k))
  {
    var row := RowsOf(data, n)[j];
    var service := ServiceOf(env.service(n));
    assert Enrich(row, service, env.dumps) == Some(ServiceRecords(data, n, env)[j]);
    EnrichedRow(row, service, env.dumps);
  }

  /** The row loop writes exactly the rows it could enrich, in order, and
      runs to its end exactly when it enriched them all. */
  lemma {:induction false} RowsWriteEnrichAll(st: State, rows: seq<Value>, enrich: Value -> Option<Value>)
    ensures Records(Rows(st, rows, enrich).messages) == EnrichAll(rows, enrich)
    ensures Rows(st, rows, enrich).status.Completed? <==> |EnrichAll(rows, enrich)| == |rows|
    decreases |rows|
  {
    if |rows| > 0 && enrich(rows[0]).Some? {
      var rest := Rows(st, rows[1..], enrich);
      RowsWriteEnrichAll(st, rows[1..], enrich);
      RecordsAppend([RecordMessage(Stream, enrich(rows[0]).value)], rest.messages);
      assert Rows(st, rows, enrich).messages == [RecordMessage(Stream, enrich(rows[0]).value)] + rest.messages;
      assert EnrichAll(rows, enrich) == [enrich(rows[0]).value] + EnrichAll(rows[1..], enrich);
    }
  }

  /** One pass of the service loop writes the records of its item; when it
      runs to its end, every row of `result['data'][n]` was written. */
  lemma ItemWritesServiceRecords(st: State, data: Value, n: Value, env: Environment)
    ensures Records(Item(st, data, n, env).messages) == ServiceRecords(data, n, env)
    ensures Item(st, data, n, env).status.Completed? ==>
      && Entry(data, n).Some? && Iterate(Entry(data, n).value).Some?
      && |ServiceRecords(data, n, env)| == |RowsOf(data, n)|
  {
    var entry := Entry(data, n);
    if entry.Some? && Iterate(entry.value).Some? {
      RowsWriteEnrichAll(st, RowsOf(data, n), Enricher(ServiceOf(env.service(n)), env.dumps));
    }
  }

  /** `ItemWritesServiceRecords` for every item at once. */
  lemma ItemPassWritesServiceRecords(st: State, data: Value, env: Environment)
    ensures forall n :: Records(ItemPass(st, data, env)(n).messages) == RecordsOfItem(data, env)(n)
    ensures forall n :: ItemPass(st, data, env)(n).status.Completed? ==>
      |ServiceRecords(data, n, env)| == |RowsOf(data, n)|
  {
    forall n
      ensures Records(Item(st, data, n, env).messages) == ServiceRecords(data, n, env)
      ensures Item(st, data, n, env).status.Completed? ==> |ServiceRecords(data, n, env)| == |RowsOf(data, n)|
    {
      ItemWritesServiceRecords(st, data, n, env);
    }
  }

  /** The service loop writes the records of its items in order. When it
      runs to its end, every pass ran to its end; when one raises, the loop
      stops after that pass, having written what the passes before it and
      that pass wrote. */
  lemma ServicesWriteInOrder(st: State, items: seq<Value>, item: Value -> Run, recs: Value -> seq<Value>)
    requires forall n :: Records(item(n).messages) == recs(n)
    ensures var r := Services(st, items, item);
      r.status.Completed? ==>
        && Records(r.messages) == Concat(items, recs)
        && forall i :: 0 <= i < |items| ==> item(items[i]).status.Completed?
    ensures var r := Services(st, items, item);
      r.status.Aborted? ==> StoppedInLastPass(r, items, item, recs)
  {
    if Services(st, items, item).status.Completed? {
      ServicesCompleted(st, items, item, recs);
    } else {
      ServicesAborted(st, items, item, recs);
    }
  }

  lemma {:induction false} ServicesCompleted(st: State, items: seq<Value>, item: Value -> Run, recs: Value -> seq<Value>)
    requires forall n :: Records(item(n).messages) == recs(n)
    requires Services(st, items, item).status.Completed?
    ensures Records(Services(st, items, item).messages) == Concat(items, recs)
    ensures forall i :: 0 <= i < |items| ==> item(items[i]).status.Completed?
    decreases |items|
  {
    if |items| > 0 {
      var first := item(items[0]);
      var rest := Services(st, items[1..], item);
      assert first.status.Completed?;
      ServicesCompleted(st, items[1..], item, recs);
      RecordsAppend(first.messages, rest.messages);
      assert Services(st, items, item).messages == first.messages + rest.messages;
      assert forall i :: 1 <= i < |items| ==> items[i] == items[1..][i - 1];
    }
  }

  /** A service loop `r` that stopped in the pass of its last call, after
      passes that all ran to their end, having written their records and
      that pass's. */
  predicate StoppedInLastPass(r: Run, items: seq<Value>, item: Value -> Run, recs: Value -> seq<Value>) {
    var k := |r.calls| - 1;
    && 0 <= k < |items|
    && item(items[k]).status.Aborted?
    && (forall i :: 0 <= i < k ==> item(items[i]).status.Completed?)
    && Records(r.messages) == Concat(items[..k], recs) + recs(items[k])
  }

  lemma {:induction false} ServicesAborted(st: State, items: seq<Value>, item: Value -> Run, recs: Value -> seq<Value>)
    requires forall n :: Records(item(n).messages) == recs(n)
    requires Services(st, items, item).status.Aborted?
    ensures StoppedInLastPass(Services(st, items, item), items, item, recs)
    decreases |items|
  {
    var r := Services(st, items, item);
    var first := item(items[0]);
    if first.status.Aborted? {
      assert r == Run(first.messages, [ServiceCall(items[0])], st, first.status);
      assert items[..0] == [];
    } else {
      var rest := Services(st, items[1..], item);
      ServicesAborted(st, items[1..], item, recs);
      assert r == Run(first.messages + rest.messages, [ServiceCall(items[0])] + rest.calls, st, rest.status);
      StoppedAfterFirst(st, items, item, recs, rest);
    }
  }

  /** A loop that stops in a later pass, after a first pass that ran to its
      end, stops in its last pass. */
  lemma StoppedAfterFirst(st: State, items: seq<Value>, item: Value -> Run, recs: Value -> seq<Value>, rest: Run)
    requires forall n :: Records(item(n).messages) == recs(n)
    requires |items| > 0 && item(items[0]).status.Completed?
    requires StoppedInLastPass(rest, items[1..], item, recs)
    ensures StoppedInLastPass(Run(item(items[0]).messages + rest.messages, [ServiceCall(items[0])] + rest.calls, st, rest.status),
      items, item, recs)
  {
    var first := item(items[0]);
    var k := |rest.calls| - 1;
    RecordsAppend(first.messages, rest.messages);
    assert items[k + 1] == items[1..][k];
    forall i | 0 <= i < k + 1
      ensures item(items[i]).status.Completed?
    {
      if i > 0 {
        assert items[i] == items[1..][i - 1];
      }
    }
    assert items[..k + 1] == [items[0]] + items[1..][..k];
    ConcatCons(items[0], items[1..][..k], recs);
  }

  lemma ConcatCons(x: Value, xs: seq<Value>, recs: Value -> seq<Value>)
    ensures Concat([x] + xs, recs) == recs(x) + Concat(xs, recs)
  {
    assert ([x] + xs)[1..] == xs;
  }

  /** `Concat` over one more item ends with that item's records. */
  lemma {:induction false} ConcatSnoc(items: seq<Value>, k: nat, recs: Value -> seq<Value>)
    requires k < |items|
    ensures Concat(items[..k + 1], recs) == Concat(items[..k], recs) + recs(items[k])
    decreases k
  {
    if k == 0 {
      assert items[..1] == [items[0]] + [];
      ConcatCons(items[0], [], recs);
    } else {
      ConcatSnoc(items[1..], k - 1, recs);
      assert items[..k + 1] == [items[0]] + items[1..][..k];
      assert items[..k] == [items[0]] + items[1..][..k - 1];
      assert items[1..][k - 1] == items[k];
      ConcatCons(items[0], items[1..][..k], recs);
      ConcatCons(items[0], items[1..][..k - 1], recs);
    }
  }

  // ---------------------------------------------------------------------
  // The bookmark at the end

  /** The `try` block after the loops: `result['meta']['to']` is read (a
      missing member raises, inside the handler as well), parsed with
      `strptime`, and written back in ISO form through the state setter. A
      `to` that is not a string makes the handler's concatenation raise; a
      string that does not parse, or a write that fails, is swallowed. */
  function Finish(st: State, result: Value): (r: Run)
    ensures r.calls == []
    ensures r.messages == [] || r.messages == [StateMessage(r.state)]
    ensures r.messages == [] ==> r.state == st
    ensures forall s :: s != Stream ==> StreamEntry(r.state, s) == StreamEntry(st, s)
    ensures forall k :: k != "bookmarks" ==> Get(r.state, k) == Get(st, k)
  {
    match Subscript(result, "meta")
    case None => Run([], [], st, Aborted(MissingMember("meta")))
    case Some(meta) =>
      match Subscript(meta, "to")
      case None => Run([], [], st, Aborted(MissingMember("to")))
      case Some(Str(text)) =>
        (match ParseUtc(text)
         case None => Run([], [], st, Completed)
         case Some(end) =>
           match WriteBookmark(st, Stream, BookmarkKey, Str(IsoFormat(end)))
           case None => Run([], [], st, Completed)
           case Some(st') => Run([StateMessage(st')], [], st', Completed))
      case Some(_) => Run([], [], st, Aborted(NotText("to")))
  }

  /** The `meta.to` of a reply, when it is a string. */
  function MetaTo(result: Value): Option<string> {
    match Subscript(result, "meta")
    case Some(meta) =>
      (match Subscript(meta, "to")
       case Some(Str(text)) => Some(text)
       case _ => None)
    case None => None
  }

  // ---------------------------------------------------------------------
  // The pass

  /** The `if result:` block, for a reply `result`: the service loop over
      `result['data']`, then the bookmark. A falsy reply does nothing. */
  function Process(st: State, result: Value, env: Environment): (r: Run)
    ensures !Truthy(result) ==> r == Run([], [], st, Completed)
  {
    if !Truthy(result) then Run([], [], st, Completed)
    else
      match Subscript(result, "data")
      case None => Run([], [], st, Aborted(MissingMember("data")))
      case Some(data) =>
        match Iterate(data)
        case None => Run([], [], st, Aborted(NotIterable))
        case Some(items) => AfterServices(st, result, Services(st, items, ItemPass(st, data, env)))
  }

  /** The rest of the block once the service loop `body` is over: the
      bookmark step, unless the loop raised. */
  function AfterServices(st: State, result: Value, body: Run): Run {
    if body.status.Aborted? then body
    else
      var fin := Finish(st, result);
      Run(body.messages + fin.messages, body.calls, fin.state, fin.status)
  }

  /** `sync_stats(schema)` with the default window, ending now. */
  function SyncStats(st: State, schema: Value, startDate: string, env: Environment): (r: Run)
    requires Valid(env.now)
    ensures |r.messages| >= 1 && r.messages[0] == SchemaMessage(Stream, schema, KeyProperties)
  {
    var head := [SchemaMessage(Stream, schema, KeyProperties)];
    match StatsStart(st, startDate)
    case Stop(reason) => Run(head, [], st, Aborted(reason))
    case Since(start) =>
      var until := EpochSeconds(env.now);
      match env.stats(start, until)
      case Raised => Run(head, [StatsCall(start, until)], st, Aborted(ClientFailed))
      case Body(result) =>
        var p := Process(st, result, env);
        Run(head + p.messages, [StatsCall(start, until)] + p.calls, p.state, p.status)
  }

  // ---------------------------------------------------------------------
  // Properties of the pass

  /** The bookmark step: with a `meta.to` that `strptime` reads and a state
      whose bookmark path can be written, the pass ends with the bookmark at
      that instant in ISO form and writes exactly that state. */
  lemma FinishWritesMetaTo(st: State, result: Value, end: DateTime)
    requires MetaTo(result).Some? && ParseUtc(MetaTo(result).value) == Some(end)
    requires Writable(st, Stream)
    ensures var r := Finish(st, result);
      && r.status.Completed?
      && r.messages == [StateMessage(r.state)]
      && GetBookmark(r.state, Stream, BookmarkKey) == Present(Str(IsoFormat(end)))
  {
  }

  /** A `meta.to` that is a string but not in the stats API's form is
      reported and skipped: the state stays as it was. */
  lemma FinishSkipsUnreadableMetaTo(st: State, result: Value)
    requires MetaTo(result).Some? && ParseUtc(MetaTo(result).value).None?
    ensures Finish(st, result) == Run([], [], st, Completed)
  {
  }

  /** The reply's block writes no SCHEMA message, records that all carry the
      service members, and at most one STATE message: the last message, of the
      final state, in a block that ran to its end. Without one the state is
      unchanged. */
  lemma ProcessOutline(st: State, result: Value, env: Environment)
    ensures NoSchema(Process(st, result, env).messages)
    ensures var r := Process(st, result, env);
      forall i :: 0 <= i < |Records(r.messages)| ==> Carries(Records(r.messages)[i])
    ensures var r := Process(st, result, env);
      States(r.messages) == [] ==> r.state == st
    ensures var r := Process(st, result, env);
      States(r.messages) != [] ==>
        States(r.messages) == [r.state] && r.status.Completed? && r.messages[|r.messages| - 1] == StateMessage(r.state)
  {
    if Truthy(result) && Subscript(result, "data").Some? {
      var data := Subscript(result, "data").value;
      if Iterate(data).Some? {
        var body := Services(st, Iterate(data).value, ItemPass(st, data, env));
        ItemPassWritesRecords(st, data, env);
        ServicesWriteRecords(st, Iterate(data).value, ItemPass(st, data, env));
        assert Process(st, result, env) == AfterServices(st, result, body);
        AfterServicesOutline(st, result, body);
      }
    }
  }

  /** The same for the part after the service loop, given what the loop
      wrote. */
  lemma AfterServicesOutline(st: State, result: Value, body: Run)
    requires EnrichedRecords(body.messages) && body.state == st
    ensures var r := AfterServices(st, result, body);
      && NoSchema(r.messages)
      && (forall i :: 0 <= i < |Records(r.messages)| ==> Carries(Records(r.messages)[i]))
      && (States(r.messages) == [] ==> r.state == st)
      && (States(r.messages) != [] ==>
            States(r.messages) == [r.state] && r.status.Completed? && r.messages[|r.messages| - 1] == StateMessage(r.state))
  {
    if body.status.Completed? {
      var fin := Finish(st, result);
      RecordsAppend(body.messages, fin.messages);
      if fin.messages != [] {
        assert Records(fin.messages) == [];
        assert States(fin.messages) == [fin.state];
      }
    }
  }

  /** In a block that runs to its end over an object `data`, one service
      lookup is made per member name, in order. */
  lemma ProcessLooksUpEveryService(st: State, result: Value, env: Environment)
    requires Process(st, result, env).status.Completed? && Truthy(result)
    requires Subscript(result, "data").Some? && Subscript(result, "data").value.Obj?
    ensures var r := Process(st, result, env);
      var fields := Subscript(result, "data").value.fields;
      && |r.calls| == |fields|
      && forall i :: 0 <= i < |fields| ==> r.calls[i] == ServiceCall(Str(fields[i].0))
  {
    var data := Subscript(result, "data").value;
    var items := Iterate(data).value;
    var body := Services(st, items, ItemPass(st, data, env));
    assert Process(st, result, env) == AfterServices(st, result, body);
  }

  /** The pass writes its SCHEMA message first and only once; when the start
      cannot be worked out, that is all it does. Otherwise the stats request
      for the window from the start to now comes first, and the rest is the
      reply's block. */
  lemma SyncStatsOutline(st: State, schema: Value, startDate: string, env: Environment)
    requires Valid(env.now)
    ensures SchemaFirst(SyncStats(st, schema, startDate, env).messages, Stream, schema, KeyProperties)
    ensures StatsStart(st, startDate).Stop? ==>
      SyncStats(st, schema, startDate, env) == Run([SchemaMessage(Stream, schema, KeyProperties)], [], st, Aborted(StatsStart(st, startDate).reason))
    ensures StatsStart(st, startDate).Since? ==>
      var r := SyncStats(st, schema, startDate, env);
      var call := StatsCall(StatsStart(st, startDate).seconds, EpochSeconds(env.now));
      && |r.calls| >= 1 && r.calls[0] == call
      && (env.stats(call.since, call.until).Body? ==>
            var p := Process(st, env.stats(call.since, call.until).body, env);
            r == Run([SchemaMessage(Stream, schema, KeyProperties)] + p.messages, [call] + p.calls, p.state, p.status))
  {
    var r := SyncStats(st, schema, startDate, env);
    var head := [SchemaMessage(Stream, schema, KeyProperties)];
    if StatsStart(st, startDate).Since? {
      var call := StatsCall(StatsStart(st, startDate).seconds, EpochSeconds(env.now));
      if env.stats(call.since, call.until).Body? {
        var p := Process(st, env.stats(call.since, call.until).body, env);
        ProcessOutline(st, env.stats(call.since, call.until).body, env);
        assert r.messages == head + p.messages;
        assert r.messages[1..] == p.messages;
      }
    }
  }

  /** A reply's block that runs to its end writes, item after item of
      `result['data']`, every row of the item, each enriched with the
      fields of that item's own service. */
  lemma ProcessWritesEveryRow(st: State, result: Value, env: Environment)
    requires Truthy(result) && Process(st, result, env).status.Completed?
    ensures Subscript(result, "data").Some? && Iterate(Subscript(result, "data").value).Some?
    ensures var data := Subscript(result, "data").value;
      var items := Iterate(data).value;
      && Records(Process(st, result, env).messages) == EnrichedRows(data, items, env)
      && forall i :: 0 <= i < |items| ==> |ServiceRecords(data, items[i], env)| == |RowsOf(data, items[i])|
  {
    var data := Subscript(result, "data").value;
    var items := Iterate(data).value;
    var body := Services(st, items, ItemPass(st, data, env));
    assert Process(st, result, env) == AfterServices(st, result, body);
    assert body.status.Completed?;
    ItemPassWritesServiceRecords(st, data, env);
    ServicesWriteInOrder(st, items, ItemPass(st, data, env), RecordsOfItem(data, env));
    var fin := Finish(st, result);
    RecordsAppend(body.messages, fin.messages);
    assert Records(fin.messages) == [];
  }

  /** Whatever way a reply's block over an iterable `data` ends, its
      records are the enriched rows of exactly the items whose service it
      looked up: all of them when the loop ran to its end, and otherwise
      those before the item whose row raised, followed by that item's rows
      up to the one that raised. */
  lemma ProcessWritesLookedUpRows(st: State, result: Value, env: Environment)
    requires Truthy(result) && Subscript(result, "data").Some? && Iterate(Subscript(result, "data").value).Some?
    ensures var items := Iterate(Subscript(result, "data").value).value;
      |Process(st, result, env).calls| <= |items|
    ensures var data := Subscript(result, "data").value;
      var items := Iterate(data).value;
      var r := Process(st, result, env);
      Records(r.messages) == EnrichedRows(data, items[..|r.calls|], env)
  {
    var data := Subscript(result, "data").value;
    var items := Iterate(data).value;
    var body := Services(st, items, ItemPass(st, data, env));
    var r := Process(st, result, env);
    assert r == AfterServices(st, result, body);
    ItemPassWritesServiceRecords(st, data, env);
    ServicesWriteLookedUp(st, items, ItemPass(st, data, env), RecordsOfItem(data, env));
    if body.status.Completed? {
      var fin := Finish(st, result);
      RecordsAppend(body.messages, fin.messages);
      assert Records(fin.messages) == [];
    }
  }

  /** The service loop writes the records of exactly the items it looked
      up, however it ends. */
  lemma ServicesWriteLookedUp(st: State, items: seq<Value>, item: Value -> Run, recs: Value -> seq<Value>)
    requires forall n :: Records(item(n).messages) == recs(n)
    ensures var r := Services(st, items, item);
      Records(r.messages) == Concat(items[..|r.calls|], recs)
  {
    var r := Services(st, items, item);
    ServicesWriteInOrder(st, items, item, recs);
    if r.status.Completed? {
      assert items[..|r.calls|] == items;
    } else {
      assert StoppedInLastPass(r, items, item, recs);
      ConcatSnoc(items, |r.calls| - 1, recs);
    }
  }

  /** Whatever way a pass over a truthy stats reply with an iterable `data`
      ends, after the stats request it has written the enriched rows of
      exactly the items whose service it looked up. */
  lemma SyncStatsWritesLookedUpRows(st: State, schema: Value, startDate: string, env: Environment)
    requires Valid(env.now) && StatsStart(st, startDate).Since?
    requires var start := StatsStart(st, startDate).seconds;
      var reply := env.stats(start, EpochSeconds(env.now));
      && reply.Body? && Truthy(reply.body)
      && Subscript(reply.body, "data").Some? && Iterate(Subscript(reply.body, "data").value).Some?
    ensures var result := env.stats(StatsStart(st, startDate).seconds, EpochSeconds(env.now)).body;
      var data := Subscript(result, "data").value;
      var items := Iterate(data).value;
      var r := SyncStats(st, schema, startDate, env);
      && 1 <= |r.calls| <= |items| + 1
      && Records(r.messages) == EnrichedRows(data, items[..|r.calls| - 1], env)
  {
    var result := env.stats(StatsStart(st, startDate).seconds, EpochSeconds(env.now)).body;
    var p := Process(st, result, env);
    var head := [SchemaMessage(Stream, schema, KeyProperties)];
    var r := SyncStats(st, schema, startDate, env);
    assert r.messages == head + p.messages;
    assert |r.calls| == |p.calls| + 1;
    ProcessWritesLookedUpRows(st, result, env);
    RecordsAppend(head, p.messages);
  }

  /** A pass that runs to its end over a truthy stats reply writes the
      enriched rows of every item of its `data`, in order. */
  lemma SyncStatsWritesEveryRow(st: State, schema: Value, startDate: string, env: Environment)
    requires Valid(env.now) && StatsStart(st, startDate).Since?
    requires var start := StatsStart(st, startDate).seconds;
      env.stats(start, EpochSeconds(env.now)).Body? && Truthy(env.stats(start, EpochSeconds(env.now)).body)
    requires SyncStats(st, schema, startDate, env).status.Completed?
    ensures var result := env.stats(StatsStart(st, startDate).seconds, EpochSeconds(env.now)).body;
      Subscript(result, "data").Some? && Iterate(Subscript(result, "data").value).Some?
    ensures var result := env.stats(StatsStart(st, startDate).seconds, EpochSeconds(env.now)).body;
      var data := Subscript(result, "data").value;
      var items := Iterate(data).value;
      && Records(SyncStats(st, schema, startDate, env).messages) == EnrichedRows(data, items, env)
      && forall i :: 0 <= i < |items| ==> |ServiceRecords(data, items[i], env)| == |RowsOf(data, items[i])|
  {
    var result := env.stats(StatsStart(st, startDate).seconds, EpochSeconds(env.now)).body;
    var p := Process(st, result, env);
    var head := [SchemaMessage(Stream, schema, KeyProperties)];
    assert SyncStats(st, schema, startDate, env).messages == head + p.messages;
    ProcessWritesEveryRow(st, result, env);
    RecordsAppend(head, p.messages);
  }

  /** The pass only ever touches `bookmarks.stats`: other streams'
      bookmarks and the state's other members are as they were, however the
      pass ends. */
  lemma SyncStatsKeepOtherStreams(st: State, schema: Value, startDate: string, env: Environment)
    requires Valid(env.now)
    ensures var r := SyncStats(st, schema, startDate, env);
      && (forall s :: s != Stream ==> StreamEntry(r.state, s) == StreamEntry(st, s))
      && (forall k :: k != "bookmarks" ==> Get(r.state, k) == Get(st, k))
  {
    if StatsStart(st, startDate).Since? {
      var start := StatsStart(st, startDate).seconds;
      var reply := env.stats(start, EpochSeconds(env.now));
      if reply.Body? && Truthy(reply.body) && Subscript(reply.body, "data").Some? {
        var data := Subscript(reply.body, "data").value;
        if Iterate(data).Some? {
          var body := Services(st, Iterate(data).value, ItemPass(st, data, env));
          assert Process(st, reply.body, env) == AfterServices(st, reply.body, body);
        }
      }
    }
  }

  /** A falsy reply (`None` or an empty document) leaves the pass with just
      its SCHEMA message and the state as it was. */
  lemma EmptyReply(st: State, schema: Value, startDate: string, env: Environment)
    requires Valid(env.now) && StatsStart(st, startDate).Since?
    requires var start := StatsStart(st, startDate).seconds;
      env.stats(start, EpochSeconds(env.now)).Body? && !Truthy(env.stats(start, EpochSeconds(env.now)).body)
    ensures var r := SyncStats(st, schema, startDate, env);
      && r.messages == [SchemaMessage(Stream, schema, KeyProperties)]
      && r.state == st && r.status.Completed?
  {
  }

  // ---------------------------------------------------------------------
  // The bookmark round trip

  /** A bookmark in the legacy `meta.to` form and its ISO rewrite start the
      window at the same second, the instant they both name. */
  lemma LegacyBookmarkStart(st: State, startDate: string, dt: DateTime)
    requires Valid(dt) && GetBookmark(st, Stream, BookmarkKey) == Present(Str(UtcFormat(dt)))
    ensures StatsStart(st, startDate) == Since(EpochSeconds(dt))
  {
    UtcFormatHasUtc(dt);
    ParseUtcRoundTrip(dt);
    ParseIsoRoundTrip(dt);
  }

  lemma IsoBookmarkStart(st: State, startDate: string, dt: DateTime)
    requires Valid(dt) && GetBookmark(st, Stream, BookmarkKey) == Present(Str(IsoFormat(dt)))
    ensures StatsStart(st, startDate) == Since(EpochSeconds(dt))
  {
    IsoFormatHasNoUtc(dt);
    ParseIsoRoundTrip(dt);
  }

  /** A pass that runs to its end over a reply whose `meta.to` parses leaves
      a bookmark from which the next pass starts exactly at `meta.to`. */
  lemma NextWindowStartsAtMetaTo(st: State, schema: Value, startDate: string, env: Environment, nextStartDate: string)
    requires Valid(env.now) && Writable(st, Stream)
    requires var start := StatsStart(st, startDate);
      && start.Since?
      && env.stats(start.seconds, EpochSeconds(env.now)).Body?
      && var result := env.stats(start.seconds, EpochSeconds(env.now)).body;
         MetaTo(result).Some? && ParseUtc(MetaTo(result).value).Some?
    requires SyncStats(st, schema, startDate, env).status.Completed?
    ensures var result := env.stats(StatsStart(st, startDate).seconds, EpochSeconds(env.now)).body;
      StatsStart(SyncStats(st, schema, startDate, env).state, nextStartDate) ==
        Since(EpochSeconds(ParseUtc(MetaTo(result).value).value))
  {
    var result := env.stats(StatsStart(st, startDate).seconds, EpochSeconds(env.now)).body;
    var end := ParseUtc(MetaTo(result).value).value;
    var p := Process(st, result, env);
    assert Truthy(result);
    var data := Subscript(result, "data").value;
    var body := Services(st, Iterate(data).value, ItemPass(st, data, env));
    assert body.status.Completed?;
    FinishWritesMetaTo(st, result, end);
    assert p.state == Finish(st, result).state;
    IsoBookmarkStart(p.state, nextStartDate, end);
  }
}

=== FILE: tap.dfy ===
/** What a sync pass sees and what it produces: singer messages, the API
    calls made, the final state and whether the pass ran to its end. */
module Tap {
  import opened Json
  import opened Bookmarks
  import opened Timestamps
  import opened Period

  /** A message singer writes to standard output. */
  datatype Message =
    | SchemaMessage(stream: string, schema: Value, keyProperties: seq<string>)
    | RecordMessage(stream: string, record: Value)
    | StateMessage(state: State)

  /** An outbound request of `FastlyClient`. */
  datatype Call =
    | BillCall(month: YearMonth)
    | StatsCall(since: int, until: int)
    | ServiceCall(id: Value)   // `service/{id}`, with the item of `data` as given

  /** What a client method gave back: the decoded body (`null` included), or
      an exception that escaped it. */
  datatype Reply = Body(body: Value) | Raised

  /** Everything a pass depends on that is outside the model: the API's
      replies, the clock and the JSON encoder `json.dumps`. */
  datatype Environment = Environment(
    bill: YearMonth -> Reply,
    stats: (int, int) -> Reply,
    service: Value -> Reply,
    now: DateTime,
    dumps: Value -> string)

  /** Why a pass stopped early: the Python exception that escaped it. */
  datatype Abort =
    | MalformedState            // a bookmark level is not a dict
    | UnparsableStart           // pendulum.parse / strptime raised on the start
    | ClientFailed              // the client's except handler itself raised
    | MissingMember(name: string)
    | NotText(name: string)     // strptime got a non-string
    | NotIterable               // a `for` over a value that is not a collection
    | EnrichmentFailed          // a service field or a row could not be used
    | UnknownStream(id: Value)  // `getattr` found no `sync_<id>` method
    | MalformedCatalog          // a lookup in the catalog raised

  datatype Status = Completed | Aborted(reason: Abort)

  /** The messages written and calls made, in order, the state at the end,
      and how the pass ended. */
  datatype Run = Run(messages: seq<Message>, calls: seq<Call>, state: State, status: Status)

  /** The records among `msgs`, in order. */
  function Records(msgs: seq<Message>): seq<Value> {
    if |msgs| == 0 then []
    else (if msgs[0].RecordMessage? then [msgs[0].record] else []) + Records(msgs[1..])
  }

  /** The states among `msgs`, in order. */
  function States(msgs: seq<Message>): seq<State> {
    if |msgs| == 0 then []
    else (if msgs[0].StateMessage? then [msgs[0].state] else []) + States(msgs[1..])
  }

  predicate NoSchema(msgs: seq<Message>) {
    forall i :: 0 <= i < |msgs| ==> !msgs[i].SchemaMessage?
  }

  /** Exactly one SCHEMA message, and it comes first. */
  predicate SchemaFirst(msgs: seq<Message>, stream: string, schema: Value, keys: seq<string>) {
    |msgs| >= 1 && msgs[0] == SchemaMessage(stream, schema, keys) && NoSchema(msgs[1..])
  }

  lemma RecordsAppend(a: seq<Message>, b: seq<Message>)
    ensures Records(a + b) == Records(a) + Records(b)
    ensures States(a + b) == States(a) + States(b)
  {
    RecordsOfAppend(a, b);
    StatesOfAppend(a, b);
  }

  lemma {:induction false} RecordsOfAppend(a: seq<Message>, b: seq<Message>)
    ensures Records(a + b) == Records(a) + Records(b)
    decreases |a|
  {
    if |a| == 0 {
      assert a + b == b;
    } else {
      var head := if a[0].RecordMessage? then [a[0].record] else [];
      assert (a + b)[0] == a[0];
      assert (a + b)[1..] == a[1..] + b;
      RecordsOfAppend(a[1..], b);
      assert Records(a + b) == head + (Records(a[1..]) + Records(b));
      assert head + (Records(a[1..]) + Records(b)) == (head + Records(a[1..])) + Records(b);
    }
  }

  lemma {:induction false} StatesOfAppend(a: seq<Message>, b: seq<Message>)
    ensures States(a + b) == States(a) + States(b)
    decreases |a|
  {
    if |a| == 0 {
      assert a + b == b;
    } else {
      var head := if a[0].StateMessage? then [a[0].state] else [];
      assert (a + b)[0] == a[0];
      assert (a + b)[1..] == a[1..] + b;
      StatesOfAppend(a[1..], b);
      assert States(a + b) == head + (States(a[1..]) + States(b));
      assert head + (States(a[1..]) + States(b)) == (head + States(a[1..])) + States(b);
    }
  }
}

=== FILE: text.dfy ===
/** Character classes and fixed-width decimal rendering used by the
    timestamp parsers. */
module Text {

  /** An ASCII decimal digit. */
  predicate IsDigit(c: char) {
    '0' <= c <= '9'
  }

  function DigitValue(c: char): (d: int)
    requires IsDigit(c)
    ensures 0 <= d < 10
  {
    c as int - '0' as int
  }

  function DigitChar(d: int): (c: char)
    requires 0 <= d < 10
    ensures IsDigit(c) && DigitValue(c) == d
  {
    ('0' as int + d) as char
  }

  predicate AllDigits(s: string) {
    forall i :: 0 <= i < |s| ==> IsDigit(s[i])
  }

  /** Length of the run of digits at the start of `s`. */
  function DigitRun(s: string): (n: nat)
    ensures n <= |s|
    ensures AllDigits(s[..n])
    ensures n < |s| ==> !IsDigit(s[n])
  {
    if |s| > 0 && IsDigit(s[0]) then
      var n := 1 + DigitRun(s[1..]);
      assert s[..n] == [s[0]] + s[1..][..n - 1];
      n
    else 0
  }

  /** The value of a string of digits read as a decimal numeral. */
  function Decimal(s: string): (n: nat)
    requires AllDigits(s)
  {
    if |s| == 0 then 0 else Decimal(s[..|s| - 1]) * 10 + DigitValue(s[|s| - 1])
  }

  /** `%02d`. */
  function Pad2(n: int): (s: string)
    requires 0 <= n < 100
    ensures |s| == 2 && AllDigits(s) && Decimal(s) == n
  {
    var s := [DigitChar(n / 10), DigitChar(n % 10)];
    assert s[..1] == [DigitChar(n / 10)];
    assert s[..1][..0] == [];
    assert Decimal(s[..1]) == n / 10;
    s
  }

  /** `%04d`. */
  function Pad4(n: int): (s: string)
    requires 0 <= n < 10000
    ensures |s| == 4 && AllDigits(s) && Decimal(s) == n
  {
    var s := Pad2(n / 100) + Pad2(n % 100);
    assert s[..3][..2] == Pad2(n / 100);
    assert s[..2] == Pad2(n / 100);
    assert Decimal(s[..3]) == Decimal(Pad2(n / 100)) * 10 + DigitValue(s[2]);
    s
  }

  /** Length of the run of digits at the start of `p + rest` when `rest`
      does not start with a digit. */
  lemma {:induction false} DigitRunOfPrefix(p: string, rest: string)
    requires AllDigits(p)
    requires |rest| == 0 || !IsDigit(rest[0])
    ensures DigitRun(p + rest) == |p|
    ensures (p + rest)[..|p|] == p && (p + rest)[|p|..] == rest
  {
    if |p| > 0 {
      assert (p + rest)[1..] == p[1..] + rest;
      DigitRunOfPrefix(p[1..], rest);
    }
  }

  /** A whitespace character as Python's `str.isspace` (and so the `\s` of a
      `re` pattern over `str`) understands it. */
  predicate IsSpace(c: char) {
    var n := c as int;
    (0x09 <= n <= 0x0D) || (0x1C <= n <= 0x20) || n == 0x85 || n == 0xA0
    || n == 0x1680 || (0x2000 <= n <= 0x200A) || n == 0x2028 || n == 0x2029
    || n == 0x202F || n == 0x205F || n == 0x3000
  }

  /** Length of the run of whitespace at the start of `s`. */
  function SpaceRun(s: string): (n: nat)
    ensures n <= |s|
    ensures forall i :: 0 <= i < n ==> IsSpace(s[i])
    ensures n < |s| ==> !IsSpace(s[n])
  {
    if |s| > 0 && IsSpace(s[0]) then 1 + SpaceRun(s[1..]) else 0
  }

  /** ASCII lower-casing. */
  function Lower(c: char): (l: char)
    ensures 'A' <= c <= 'Z' ==> l as int == c as int + 32
    ensures !('A' <= c <= 'Z') ==> l == c
  {
    if 'A' <= c <= 'Z' then (c as int + 32) as char else c
  }

  /** Python's `t in s` on strings: `t` occurs as a substring of `s`. */
  predicate Contains(s: string, t: string)
    decreases |s|
  {
    |t| <= |s| && (s[..|t|] == t || (|s| > 0 && Contains(s[1..], t)))
  }

  /** A string none of whose characters is the first character of `t` does
      not contain `t`. */
  lemma {:induction false} NotContainsWithoutFirst(s: string, t: string)
    requires |t| > 0
    requires forall i :: 0 <= i < |s| ==> s[i] != t[0]
    ensures !Contains(s, t)
    decreases |s|
  {
    if |t| <= |s| {
      assert s[..|t|][0] == s[0];
      if |s| > 0 {
        NotContainsWithoutFirst(s[1..], t);
      }
    }
  }

  /** A string contains each of its suffixes. */
  lemma {:induction false} ContainsSuffix(s: string, t: string)
    requires |t| <= |s| && s[|s| - |t|..] == t
    ensures Contains(s, t)
    decreases |s|
  {
    if |s| > |t| {
      assert s[1..][|s| - 1 - |t|..] == t;
      ContainsSuffix(s[1..], t);
    }
  }
}

=== FILE: timestamps.dfy ===
/** Civil date-times and the fixed-format conversions of the sync passes:
    `strptime` with `%Y-%m-%dT%H:%M:%SZ` and `%Y-%m-%d %H:%M:%S UTC`,
    `isoformat()`, the ISO forms `pendulum.parse` is given, and
    `int_timestamp`. */
module Timestamps {
  import opened Wrappers
  import opened Text

  /** A naive civil date-time; the tap always reads it as UTC. */
  datatype DateTime = DateTime(year: int, month: int, day: int, hour: int, minute: int, second: int)

  predicate IsLeapYear(y: int) {
    y % 4 == 0 && (y % 100 != 0 || y % 400 == 0)
  }

  function DaysInMonth(y: int, m: int): int
    requires 1 <= m <= 12
  {
    if m == 2 then (if IsLeapYear(y) then 29 else 28)
    else if m == 4 || m == 6 || m == 9 || m == 11 then 30
    else 31
  }

  /** The date-times Python's `datetime` constructor accepts (no leap seconds,
      years 1 to 9999). */
  predicate Valid(dt: DateTime) {
    && 1 <= dt.year <= 9999
    && 1 <= dt.month <= 12
    && 1 <= dt.day <= DaysInMonth(dt.year, dt.month)
    && 0 <= dt.hour < 24
    && 0 <= dt.minute < 60
    && 0 <= dt.second < 60
  }

  /** `datetime(y, m, d, h, mi, s)`: the value, or `None` where Python raises
      `ValueError`. */
  function Make(y: int, m: int, d: int, h: int, mi: int, s: int): (r: Option<DateTime>)
    ensures r.Some? <==> Valid(DateTime(y, m, d, h, mi, s))
    ensures r.Some? ==> r.value == DateTime(y, m, d, h, mi, s)
  {
    var dt := DateTime(y, m, d, h, mi, s);
    if Valid(dt) then Some(dt) else None
  }

  // ---------------------------------------------------------------------
  // Rendering

  /** `HH:MM:SS<suffix>` with zero-padded fields. */
  function TimeText(dt: DateTime, suffix: string): string
    requires Valid(dt)
  {
    Pad2(dt.hour) + (":" + (Pad2(dt.minute) + (":" + (Pad2(dt.second) + suffix))))
  }

  /** `YYYY-MM-DD<sep>HH:MM:SS<suffix>` with zero-padded fields. */
  function Render(dt: DateTime, sep: string, suffix: string): string
    requires Valid(dt)
  {
    Pad4(dt.year) + ("-" + (Pad2(dt.month) + ("-" + (Pad2(dt.day) + (sep + TimeText(dt, suffix))))))
  }

  /** `datetime.isoformat()` of a value without microseconds or zone. */
  function IsoFormat(dt: DateTime): string
    requires Valid(dt)
  {
    Render(dt, "T", "")
  }

  /** The billing API's `end_time` form, `%Y-%m-%dT%H:%M:%SZ`. */
  function ZuluFormat(dt: DateTime): string
    requires Valid(dt)
  {
    Render(dt, "T", "Z")
  }

  /** The stats API's `meta.to` form, `%Y-%m-%d %H:%M:%S UTC`. */
  function UtcFormat(dt: DateTime): string
    requires Valid(dt)
  {
    Render(dt, " ", " UTC")
  }

  // ---------------------------------------------------------------------
  // `strptime` directives. Each scanner consumes one directive of the
  // format at the start of the input and returns what is left. Every
  // numeric directive is followed by a non-digit in both formats, so the
  // regular expression strptime compiles matches exactly when the whole
  // run of digits is one of the directive's alternatives.

  /** `%Y`: four digits. */
  function ScanYear(s: string): Option<(int, string)> {
    var n := DigitRun(s);
    if n == 4 then Some((Decimal(s[..4]), s[4..])) else None
  }

  /** `%m`, `%H`, `%M`, `%S`: one or two digits whose value lies in `lo..hi`
      (a two-digit field may have a leading zero). */
  function ScanNumber(s: string, lo: int, hi: int): Option<(int, string)> {
    var n := DigitRun(s);
    if (n == 1 || n == 2) && lo <= Decimal(s[..n]) <= hi then Some((Decimal(s[..n]), s[n..])) else None
  }

  /** `%d`: like `ScanNumber(s, 1, 31)`, and also a space followed by one
      non-zero digit. */
  function ScanDay(s: string): Option<(int, string)> {
    if |s| >= 2 && s[0] == ' ' && '1' <= s[1] <= '9' && DigitRun(s[1..]) == 1 then
      Some((DigitValue(s[1]), s[2..]))
    else ScanNumber(s, 1, 31)
  }

  /** A punctuation character of the format, matched literally. */
  function ScanChar(s: string, c: char): Option<string> {
    if |s| > 0 && s[0] == c then Some(s[1..]) else None
  }

  /** A letter of the format; strptime matches it ignoring case. */
  function ScanLetter(s: string, c: char): Option<string> {
    if |s| > 0 && (s[0] == c || s[0] == Lower(c)) then Some(s[1..]) else None
  }

  /** A space of the format, which strptime turns into `\s+`. */
  function ScanSpaces(s: string): Option<string> {
    var n := SpaceRun(s);
    if n >= 1 then Some(s[n..]) else None
  }

  /** The shared `%Y-%m-%d` prefix of both formats, with the day's remainder. */
  function ScanDate(s: string): Option<(int, int, int, string)> {
    var y :- ScanYear(s);
    var a :- ScanChar(y.1, '-');
    var m :- ScanNumber(a, 1, 12);
    var b :- ScanChar(m.1, '-');
    var d :- ScanDay(b);
    Some((y.0, m.0, d.0, d.1))
  }

  /** The shared `%H:%M:%S` part of both formats. */
  function ScanTime(s: string): Option<(int, int, int, string)> {
    var h :- ScanNumber(s, 0, 23);
    var a :- ScanChar(h.1, ':');
    var mi :- ScanNumber(a, 0, 59);
    var b :- ScanChar(mi.1, ':');
    var sec :- ScanNumber(b, 0, 61);
    Some((h.0, mi.0, sec.0, sec.1))
  }

  /** `datetime.strptime(s, "%Y-%m-%dT%H:%M:%SZ")`, `None` where it raises. */
  function ParseZulu(s: string): (r: Option<DateTime>)
    ensures r.Some? ==> Valid(r.value)
  {
    var date :- ScanDate(s);
    var t :- ScanLetter(date.3, 'T');
    var time :- ScanTime(t);
    var z :- ScanLetter(time.3, 'Z');
    if z == [] then Make(date.0, date.1, date.2, time.0, time.1, time.2) else None
  }

  /** `datetime.strptime(s, "%Y-%m-%d %H:%M:%S UTC")`, `None` where it raises. */
  function ParseUtc(s: string): (r: Option<DateTime>)
    ensures r.Some? ==> Valid(r.value)
  {
    var date :- ScanDate(s);
    var t :- ScanSpaces(date.3);
    var time :- ScanTime(t);
    var w :- ScanSpaces(time.3);
    var u :- ScanLetter(w, 'U');
    var v :- ScanLetter(u, 'T');
    var c :- ScanLetter(v, 'C');
    if c == [] then Make(date.0, date.1, date.2, time.0, time.1, time.2) else None
  }

  // ---------------------------------------------------------------------
  // `pendulum.parse`, on the ISO 8601 forms the tap hands it

  /** `n` digits at the start of `s`. */
  function Fixed(s: string, n: nat): Option<(int, string)> {
    if |s| >= n && AllDigits(s[..n]) then Some((Decimal(s[..n]), s[n..])) else None
  }

  /** `pendulum.parse` on `YYYY-MM-DD`, `YYYY-MM-DDTHH:MM:SS` and
      `YYYY-MM-DDTHH:MM:SSZ`, all read as UTC; `None` for anything else. */
  function ParseIso(s: string): (r: Option<DateTime>)
    ensures r.Some? ==> Valid(r.value)
  {
    var y :- Fixed(s, 4);
    var a :- ScanChar(y.1, '-');
    var m :- Fixed(a, 2);
    var b :- ScanChar(m.1, '-');
    var d :- Fixed(b, 2);
    if d.1 == [] then Make(y.0, m.0, d.0, 0, 0, 0)
    else
      var t :- ScanChar(d.1, 'T');
      var h :- Fixed(t, 2);
      var c :- ScanChar(h.1, ':');
      var mi :- Fixed(c, 2);
      var e :- ScanChar(mi.1, ':');
      var sec :- Fixed(e, 2);
      if sec.1 == [] || sec.1 == "Z" then Make(y.0, m.0, d.0, h.0, mi.0, sec.0) else None
  }

  // ---------------------------------------------------------------------
  // Round trips

  lemma ScanYearPad(y: int, rest: string)
    requires 0 <= y < 10000 && |rest| > 0 && !IsDigit(rest[0])
    ensures ScanYear(Pad4(y) + rest) == Some((y, rest))
  {
    DigitRunOfPrefix(Pad4(y), rest);
  }

  lemma ScanNumberPad(x: int, lo: int, hi: int, rest: string)
    requires 0 <= lo <= x <= hi < 100 && |rest| > 0 && !IsDigit(rest[0])
    ensures ScanNumber(Pad2(x) + rest, lo, hi) == Some((x, rest))
  {
    DigitRunOfPrefix(Pad2(x), rest);
  }

  lemma ScanDayPad(x: int, rest: string)
    requires 1 <= x <= 31 && |rest| > 0 && !IsDigit(rest[0])
    ensures ScanDay(Pad2(x) + rest) == Some((x, rest))
  {
    ScanNumberPad(x, 1, 31, rest);
  }

  lemma FixedPad2(x: int, rest: string)
    requires 0 <= x < 100
    ensures Fixed(Pad2(x) + rest, 2) == Some((x, rest))
  {
    assert (Pad2(x) + rest)[..2] == Pad2(x);
  }

  lemma FixedPad4(x: int, rest: string)
    requires 0 <= x < 10000
    ensures Fixed(Pad4(x) + rest, 4) == Some((x, rest))
  {
    assert (Pad4(x) + rest)[..4] == Pad4(x);
  }

  lemma ScanCharCons(c: char, rest: string)
    ensures ScanChar([c] + rest, c) == Some(rest)
    ensures 'A' <= c <= 'Z' ==> ScanLetter([c] + rest, c) == Some(rest)
  {
    assert ([c] + rest)[1..] == rest;
  }

  /** The date part of a rendering scans back to the date. */
  lemma ScanDateRender(dt: DateTime, sep: string, suffix: string)
    requires Valid(dt) && |sep| > 0 && !IsDigit(sep[0])
    ensures ScanDate(Render(dt, sep, suffix)) == Some((dt.year, dt.month, dt.day, sep + TimeText(dt, suffix)))
  {
    var t := sep + TimeText(dt, suffix);
    var dayAndTime := Pad2(dt.day) + t;
    var afterMonth := "-" + dayAndTime;
    var monthOn := Pad2(dt.month) + afterMonth;
    var afterYear := "-" + monthOn;
    ScanYearPad(dt.year, afterYear);
    ScanCharCons('-', monthOn);
    ScanNumberPad(dt.month, 1, 12, afterMonth);
    ScanCharCons('-', dayAndTime);
    ScanDayPad(dt.day, t);
  }

  /** The time part of a rendering scans back to the time. */
  lemma ScanTimeRender(dt: DateTime, suffix: string)
    requires Valid(dt) && |suffix| > 0 && !IsDigit(suffix[0])
    ensures ScanTime(TimeText(dt, suffix)) == Some((dt.hour, dt.minute, dt.second, suffix))
  {
    var secOn := Pad2(dt.second) + suffix;
    var afterMinute := ":" + secOn;
    var minuteOn := Pad2(dt.minute) + afterMinute;
    var afterHour := ":" + minuteOn;
    ScanNumberPad(dt.hour, 0, 23, afterHour);
    ScanCharCons(':', minuteOn);
    ScanNumberPad(dt.minute, 0, 59, afterMinute);
    ScanCharCons(':', secOn);
    ScanNumberPad(dt.second, 0, 61, suffix);
  }

  /** An `end_time` rendered by the billing API parses back to its value. */
  lemma ParseZuluRoundTrip(dt: DateTime)
    requires Valid(dt)
    ensures ParseZulu(ZuluFormat(dt)) == Some(dt)
  {
    var t := TimeText(dt, "Z");
    ScanDateRender(dt, "T", "Z");
    ScanCharCons('T', t);
    ScanTimeRender(dt, "Z");
    ScanCharCons('Z', []);
  }

  /** A `meta.to` rendered by the stats API parses back to its value. */
  lemma ParseUtcRoundTrip(dt: DateTime)
    requires Valid(dt)
    ensures ParseUtc(UtcFormat(dt)) == Some(dt)
  {
    var t := TimeText(dt, " UTC");
    ScanDateRender(dt, " ", " UTC");
    assert SpaceRun(" " + t) == 1;
    assert (" " + t)[1..] == t;
    ScanTimeRender(dt, " UTC");
    assert SpaceRun(" UTC") == 1;
    ScanCharCons('U', "TC");
    ScanCharCons('T', "C");
    ScanCharCons('C', []);
  }

  /** What `isoformat()` writes, `pendulum.parse` reads back unchanged, with or
      without the `Z` of the billing API. */
  lemma ParseIsoRoundTrip(dt: DateTime)
    requires Valid(dt)
    ensures ParseIso(IsoFormat(dt)) == Some(dt)
    ensures ParseIso(ZuluFormat(dt)) == Some(dt)
  {
    ParseIsoRender(dt, "");
    ParseIsoRender(dt, "Z");
  }

  lemma ParseIsoRender(dt: DateTime, suffix: string)
    requires Valid(dt) && (suffix == "" || suffix == "Z")
    ensures ParseIso(Render(dt, "T", suffix)) == Some(dt)
  {
    var secOn := Pad2(dt.second) + suffix;
    var afterMinute := ":" + secOn;
    var minuteOn := Pad2(dt.minute) + afterMinute;
    var afterHour := ":" + minuteOn;
    var hourOn := Pad2(dt.hour) + afterHour;
    var t := "T" + hourOn;
    var dayOn := Pad2(dt.day) + t;
    var afterMonth := "-" + dayOn;
    var monthOn := Pad2(dt.month) + afterMonth;
    var afterYear := "-" + monthOn;
    FixedPad4(dt.year, afterYear);
    ScanCharCons('-', monthOn);
    FixedPad2(dt.month, afterMonth);
    ScanCharCons('-', dayOn);
    FixedPad2(dt.day, t);
    ScanCharCons('T', hourOn);
    FixedPad2(dt.hour, afterHour);
    ScanCharCons(':', minuteOn);
    FixedPad2(dt.minute, afterMinute);
    ScanCharCons(':', secOn);
    FixedPad2(dt.second, suffix);
  }

  /** `isoformat()` never produces the text `UTC`, so a bookmark the stats
      pass writes is never taken for the legacy form. */
  lemma IsoFormatHasNoUtc(dt: DateTime)
    requires Valid(dt)
    ensures !Contains(IsoFormat(dt), "UTC")
  {
    var s := IsoFormat(dt);
    forall i | 0 <= i < |s|
      ensures s[i] != 'U'
    {
      IsoFormatChars(dt, i);
    }
    NotContainsWithoutFirst(s, "UTC");
  }

  /** A `meta.to` in the stats API's form holds the text `UTC`, so the stats
      pass takes such a bookmark for the legacy form. */
  lemma UtcFormatHasUtc(dt: DateTime)
    requires Valid(dt)
    ensures Contains(UtcFormat(dt), "UTC")
  {
    var s := UtcFormat(dt);
    var head := Pad4(dt.year) + "-" + Pad2(dt.month) + "-" + Pad2(dt.day) + " "
      + Pad2(dt.hour) + ":" + Pad2(dt.minute) + ":" + Pad2(dt.second) + " ";
    assert s == head + "UTC";
    assert s[|s| - 3..] == "UTC";
    ContainsSuffix(s, "UTC");
  }

  lemma IsoFormatChars(dt: DateTime, i: int)
    requires Valid(dt) && 0 <= i < |IsoFormat(dt)|
    ensures IsDigit(IsoFormat(dt)[i]) || IsoFormat(dt)[i] in "-T:"
  {
  }

  // ---------------------------------------------------------------------
  // `int_timestamp`

  function YearLength(y: int): int {
    if IsLeapYear(y) then 366 else 365
  }

  /** Days from 1970-01-01 to January 1st of year `y` in the proleptic
      Gregorian calendar. */
  function DaysBeforeYear(y: int): int
    requires y >= 1
  {
    var x := y - 1;
    365 * x + x / 4 - x / 100 + x / 400 - 719162
  }

  /** Days of year `y` before the first of month `m` (`m == 13`: the whole year). */
  function DaysBeforeMonth(y: int, m: int): (n: int)
    requires 1 <= m <= 13
    ensures n >= 0
  {
    if m == 1 then 0 else DaysBeforeMonth(y, m - 1) + DaysInMonth(y, m - 1)
  }

  /** Days from 1970-01-01 to the date of `dt`. */
  function DayNumber(dt: DateTime): int
    requires Valid(dt)
  {
    DaysBeforeYear(dt.year) + DaysBeforeMonth(dt.year, dt.month) + dt.day - 1
  }

  /** `pendulum.parse(...).int_timestamp`: seconds since 1970-01-01T00:00:00
      of a naive date-time read as UTC. */
  function EpochSeconds(dt: DateTime): int
    requires Valid(dt)
  {
    DayNumber(dt) * 86400 + dt.hour * 3600 + dt.minute * 60 + dt.second
  }

  /** Strictly earlier, comparing the fields from the year down to the second. */
  predicate Before(a: DateTime, b: DateTime) {
    || a.year < b.year
    || (a.year == b.year && a.month < b.month)
    || (a.year == b.year && a.month == b.month && a.day < b.day)
    || (a.year == b.year && a.month == b.month && a.day == b.day && a.hour < b.hour)
    || (a.year == b.year && a.month == b.month && a.day == b.day && a.hour == b.hour && a.minute < b.minute)
    || (a.year == b.year && a.month == b.month && a.day == b.day && a.hour == b.hour && a.minute == b.minute
        && a.second < b.second)
  }

  lemma YearStep(y: int)
    requires y >= 1
    ensures DaysBeforeYear(y + 1) == DaysBeforeYear(y) + YearLength(y)
  {
    DivStep4(y);
    DivStep100(y);
    DivStep400(y);
    MultiplesNest(y);
    var leaps := (if y % 4 == 0 then 1 else 0) - (if y % 100 == 0 then 1 else 0) + (if y % 400 == 0 then 1 else 0);
    assert DaysBeforeYear(y + 1) == DaysBeforeYear(y) + 365 + leaps;
    assert YearLength(y) == 365 + leaps;
  }

  /** Counting the multiples of 4, 100 and 400 up to `y` rather than `y - 1`
      adds one exactly when `y` is one. */
  lemma DivStep4(y: int)
    requires y >= 1
    ensures y / 4 == (y - 1) / 4 + (if y % 4 == 0 then 1 else 0)
  {
  }

  lemma DivStep100(y: int)
    requires y >= 1
    ensures y / 100 == (y - 1) / 100 + (if y % 100 == 0 then 1 else 0)
  {
  }

  lemma DivStep400(y: int)
    requires y >= 1
    ensures y / 400 == (y - 1) / 400 + (if y % 400 == 0 then 1 else 0)
  {
  }

  /** A multiple of 400 is one of 100, and a multiple of 100 one of 4. */
  lemma MultiplesNest(y: int)
    ensures y % 400 == 0 ==> y % 100 == 0
    ensures y % 100 == 0 ==> y % 4 == 0
  {
    if y % 400 == 0 {
      MultipleOf(y / 400, 4, 100);
      assert y == (y / 400) * 400;
    }
    if y % 100 == 0 {
      MultipleOf(y / 100, 25, 4);
      assert y == (y / 100) * 100;
    }
  }

  /** `k * (m * d)` is a multiple of `d`. */
  lemma MultipleOf(k: int, m: int, d: int)
    requires m > 0 && d > 0
    ensures (k * (m * d)) % d == 0
  {
    var n := k * m;
    assert k * (m * d) == n * d;
    ModOfProduct(n, d);
  }

  lemma ModOfProduct(n: int, d: int)
    requires d > 0
    ensures (n * d) % d == 0
  {
    var q, r := (n * d) / d, (n * d) % d;
    assert n * d == q * d + r && 0 <= r < d;
    assert r == (n - q) * d;
    ProductBounds(n - q, d);
  }

  /** A non-zero multiple of `d` is at least `d` away from zero. */
  lemma ProductBounds(k: int, d: int)
    requires d > 0
    ensures k >= 1 ==> k * d >= d
    ensures k <= -1 ==> k * d <= -d
  {
    if k >= 1 {
      assert k * d == (k - 1) * d + d;
    }
    if k <= -1 {
      assert k * d == (k + 1) * d - d;
    }
  }

  lemma {:induction false} YearsIncrease(a: int, b: int)
    requires 1 <= a < b
    ensures DaysBeforeYear(a) + YearLength(a) <= DaysBeforeYear(b)
    decreases b - a
  {
    YearStep(a);
    if a + 1 < b {
      YearsIncrease(a + 1, b);
    }
  }

  lemma {:induction false} MonthsIncrease(y: int, a: int, b: int)
    requires 1 <= a < b <= 13
    ensures DaysBeforeMonth(y, a) + DaysInMonth(y, a) <= DaysBeforeMonth(y, b)
    decreases b - a
  {
    if a + 1 < b {
      MonthsIncrease(y, a + 1, b);
    }
  }

  /** Days before each month: the usual table, plus one from March on in a
      leap year. */
  lemma DaysBeforeMonthTable(y: int, m: int)
    requires 1 <= m <= 13
    ensures DaysBeforeMonth(y, m) ==
      [0, 0, 31, 59, 90, 120, 151, 181, 212, 243, 273, 304, 334, 365][m]
      + (if IsLeapYear(y) && m > 2 then 1 else 0)
  {
    var leap := if IsLeapYear(y) then 1 else 0;
    assert DaysBeforeMonth(y, 2) == 31;
    assert DaysBeforeMonth(y, 3) == 59 + leap;
    assert DaysBeforeMonth(y, 4) == 90 + leap;
    assert DaysBeforeMonth(y, 5) == 120 + leap;
    assert DaysBeforeMonth(y, 6) == 151 + leap;
    assert DaysBeforeMonth(y, 7) == 181 + leap;
    assert DaysBeforeMonth(y, 8) == 212 + leap;
    assert DaysBeforeMonth(y, 9) == 243 + leap;
    assert DaysBeforeMonth(y, 10) == 273 + leap;
    assert DaysBeforeMonth(y, 11) == 304 + leap;
    assert DaysBeforeMonth(y, 12) == 334 + leap;
  }

  lemma WholeYear(y: int)
    ensures DaysBeforeMonth(y, 13) == YearLength(y)
  {
    DaysBeforeMonthTable(y, 13);
  }

  lemma DayNumberIncreases(a: DateTime, b: DateTime)
    requires Valid(a) && Valid(b)
    requires a.year < b.year || (a.year == b.year && a.month < b.month)
      || (a.year == b.year && a.month == b.month && a.day < b.day)
    ensures DayNumber(a) < DayNumber(b)
  {
    if a.year < b.year {
      MonthsIncrease(a.year, a.month, 13);
      WholeYear(a.year);
      YearsIncrease(a.year, b.year);
    } else if a.month < b.month {
      MonthsIncrease(a.year, a.month, b.month);
    }
  }

  /** `int_timestamp` preserves the order of date-times and so never maps two
      date-times to the same instant. */
  lemma EpochSecondsOrder(a: DateTime, b: DateTime)
    requires Valid(a) && Valid(b)
    ensures Before(a, b) <==> EpochSeconds(a) < EpochSeconds(b)
    ensures a == b <==> EpochSeconds(a) == EpochSeconds(b)
  {
    if Before(a, b) {
      EpochIncreases(a, b);
    } else if a != b {
      EpochIncreases(b, a);
    }
  }

  lemma EpochIncreases(a: DateTime, b: DateTime)
    requires Valid(a) && Valid(b) && Before(a, b)
    ensures EpochSeconds(a) < EpochSeconds(b)
  {
    if a.year < b.year || (a.year == b.year && a.month < b.month)
      || (a.year == b.year && a.month == b.month && a.day < b.day)
    {
      DayNumberIncreases(a, b);
    }
  }

  /** The epoch itself is instant zero. */
  lemma EpochOrigin()
    ensures EpochSeconds(DateTime(1970, 1, 1, 0, 0, 0)) == 0
  {
    assert DaysBeforeYear(1970) == 0;
    assert DayNumber(DateTime(1970, 1, 1, 0, 0, 0)) == 0;
  }

  /** A date after a leap day, checking the calendar arithmetic. */
  lemma EpochAfterLeapDay()
    ensures EpochSeconds(DateTime(2000, 3, 1, 0, 0, 0)) == 951868800
  {
    var dt := DateTime(2000, 3, 1, 0, 0, 0);
    assert DaysBeforeYear(2000) == 10957;
    DaysBeforeMonthTable(2000, 3);
    assert DayNumber(dt) == 11017;
  }
}

=== FILE: wrappers.dfy ===
/** Failure-compatible Option used by the parsers and lookups of the model. */
module Wrappers {

  /** Some value, or nothing; `:-` propagates `None`. */
  datatype Option<+T> = None | Some(value: T) {

    predicate IsFailure() {
      None?
    }

    function PropagateFailure<U>(): Option<U>
      requires None?
    {
      None
    }

    function Extract(): T
      requires Some?
    {
      value
    }
  }
}
